=== FILE: README.md ===
# Back-office ledger, payroll and wholesale totals — a Dafny model

This project models the bookkeeping core of a small back-office API for a trading
business (clients, firms, workers, wholesale buyers). The API is mostly database and
HTTP plumbing. Three pieces of integer bookkeeping are stated and proved here.

- **Debt ledgers.** A client's or firm's `debt` column is derived from its rows.
  `store` writes the opening debt directly; where the hook works, the opening row's
  `created` hook then recomputes it. Apart from that, only the `created` and `updated`
  hooks of the `Debt` and `FirmDebt` models write the column, and they recompute it
  from scratch. The new value is the sum over the party's rows of `+amount` when the
  status is `'oldi'` and `-amount` for any other status. Client rows flagged
  `is_deleted` are skipped. Firm rows have no such flag, so all of them count. The
  controllers add to the ledger only by appending rows: one opening `'oldi'` row when
  a party is created, then one row per `change-debt` request.
- **Worker pay accrual.** A working worker (`status = 'ishlayabdi'`) has
  `summa = (days since start + (hour >= 11 ? 1 : 0)) * daily rate`. Listing, showing
  and updating such a worker rewrites `summa` with this value. A pay event first
  re-accrues, then subtracts (`'oldi'`) or adds (`'berdi'`) its amount. A daily
  command scheduled at 11:00 rewrites `summa` with an unconditional `+1`.
- **Wholesale totals.** Each sale item stores `subtotal = quantity * price`. Each sale
  stores `total_sum`. Create, item update and item delete keep `total_sum` equal to
  the sum of the sale's subtotals. A direct overwrite of `total_sum` does not. An
  item tied to a product takes its price from a `(sale type, unit)` table of price
  fields.

The generic fold `Ledger.Total(rows, share)` serves all three sums. The controller
actions are pure functions from a record store to a `Reply(state, status)`. The
store is returned unchanged whenever the action answers 404 or 422 before writing.
The wall clock is a parameter, `Clock(today, hour)`. `today` is a day number in the
business's fixed civil calendar and `hour` is the local hour 0..23.

The recomputation in the `Debt` hooks calls `$client->debts()`, and `show` eager-loads
`debts`, but the `Client` model declares no such relation (app/Models/Client.php:7-21).
Laravel raises on an undefined relation. The members `Debts.CreateDebt`,
`Debts.UpdateDebt`, `Clients.Store`, `Clients.ChangeDebt` and `Clients.Show` state these
actions as intended, with the relation in place. The members ending in `AsWritten`
state what the code does as it stands: the row is saved, then the hook raises and the
client's debt is left as it was. The Findings table pairs each of them.

Two behaviours of the code worth noting:

- Soft-deleting a client debt row is an update, so the intended `updated` hook
  recomputes the balance, which then excludes that row (`Debts.SoftDeleteRow`). A hard
  delete runs no hook and leaves the balance stale (`Debts.HardDeleteLeavesStaleDebt`).
  As written, the soft delete leaves it stale too
  (`Debts.SoftDeleteAsWrittenLeavesStaleDebt`).
- Deleting a client twice succeeds twice (`Clients.DestroyIdempotent`). Deleting a
  firm a second time answers 404 (`Firms.DestroyTwiceNotFound`). This is because
  `destroy` looks the firm up with soft-deleted firms filtered out; `show`, `update`
  and `change-debt` filter the same way.

Laravel leaves keys that are absent from a request out of the validated data. Reading
such a key raises an exception. So the model answers 500 (`ServerError`) when a
nullable key the handler reads is absent. These keys are `image` in client `store`,
the three phone keys in firm `store`, and `recorded_by` in firm `change-debt`. The
same holds for `unit` in an `updateOptomchi` item entry whose item is tied to a
product.

## Model

| member | source | states |
|---|---|---|
| Debts.UpdateClientDebt | app/Models/Debt.php:38-48 | the owning client's `debt` becomes the signed sum of its non-deleted rows; no other attribute and no other client changes; nothing is written when the row has no owning client |
| Debts.CreateDebt | app/Models/Debt.php:29-31 | after a row is created, the owner's debt moves by +amount for 'oldi', by -amount for any other status, and by 0 for a deleted row; every client stays consistent with its rows |
| Debts.UpdateDebt | app/Models/Debt.php:33-35 | after a row is updated, the new owner's debt equals its balance again and every other client is untouched; consistency is kept whenever the row keeps its owner |
| Debts.MovedRowLeavesOldOwnerStale | app/Models/Debt.php:33-46 | moving a counted row to another client leaves the old owner's debt stale, so the book becomes inconsistent |
| Debts.DeleteDebt | app/Models/Debt.php:27-36 | a hard delete runs no hook: the clients are untouched and exactly one row is gone |
| Debts.Visible | app/Http/Controllers/ClientController.php:264-266 | keeps exactly the client's rows that are not soft-deleted |
| Debts.BalanceIsVisibleSum | app/Models/Debt.php:42-44 | the balance is the signed sum over exactly the non-deleted rows of that client: deleted rows and other clients' rows count for nothing |
| Debts.BalanceIgnoresOrder | app/Models/Debt.php:42-44 | two row sequences with the same rows give the same balance |
| Debts.RecomputeIdempotent | app/Models/Debt.php:42-46 | recomputing twice equals recomputing once, and the result does not depend on the previous debt |
| Debts.SoftDeleteRow | app/Models/Debt.php:33-35 | soft-deleting a counted row lowers the owner's debt by that row's signed amount and keeps the book consistent |
| Debts.HardDeleteLeavesStaleDebt | app/Models/Debt.php:27-36 | removing a row that counts makes the book inconsistent |
| FirmDebts.UpdateFirmDebt | app/Models/FirmDebt.php:33-42 | the owning firm's `debt` becomes the signed sum of all its rows; only that attribute of that firm changes; no write when the firm is missing |
| FirmDebts.CreateFirmDebt | app/Models/FirmDebt.php:24-26 | appending an 'oldi' row raises the owner's debt by its amount, any other status lowers it by its amount; every firm stays consistent |
| FirmDebts.UpdateFirmDebtRow | app/Models/FirmDebt.php:28-30 | after a row update the new owner's debt equals its balance and every other firm is untouched; consistency is kept when the row keeps its firm |
| FirmDebts.MovedRowLeavesOldFirmStale | app/Models/FirmDebt.php:28-40 | moving a counted row to another firm leaves the old firm's debt stale, so the registry becomes inconsistent |
| FirmDebts.NoRowsNoBalance | app/Models/FirmDebt.php:37-38 | a firm without rows has balance 0 |
| FirmDebts.BalanceIgnoresOrder | app/Models/FirmDebt.php:37-38 | the balance does not depend on the order of the rows |
| FirmDebts.RecomputeIdempotent | app/Models/FirmDebt.php:37-40 | recomputing twice equals recomputing once, whatever the previous debt |
| FirmDebts.BalanceCountsEveryRow | app/Models/FirmDebt.php:37-38 | with no deleted-filter, every row of the firm counts with its signed amount |
| Debts.NoRowsNoBalance | app/Models/Debt.php:42-44 | a client without rows has balance 0 |
| Clients.Store | app/Http/Controllers/ClientController.php:169-202 | 422 on a blank required field or an over-long one; 500 without an `image` key; otherwise one new non-deleted client with the given fields and exactly one 'oldi', non-deleted row for the given debt, whose balance equals that debt; validity is kept |
| Clients.ChangeDebt | app/Http/Controllers/ClientController.php:474-503 | 404 and nothing appended for an unknown id; 422 unless amount >= 0 and status is 'oldi' or 'berdi'; otherwise exactly one non-deleted row is appended and the debt moves by ±amount; the client's own flag is not consulted |
| Clients.Update | app/Http/Controllers/ClientController.php:335-360 | only name, info, phone, image and recorded_by change; debt, flag and ledger are untouched |
| Clients.Destroy | app/Http/Controllers/ClientController.php:394-411 | only the flag is set; the rows and the debt are untouched |
| Clients.DestroyIdempotent | app/Http/Controllers/ClientController.php:396-405 | a second delete of the same client succeeds and changes nothing more |
| Clients.Index | app/Http/Controllers/ClientController.php:106-111 | lists exactly the clients whose flag equals the filter, and non-deleted ones when no filter is given |
| Clients.Show | app/Http/Controllers/ClientController.php:262-278 | 404 only for an unknown id; lists exactly the client's non-deleted rows, newest first |
| Clients.ShowAgreesWithDebt | app/Http/Controllers/ClientController.php:264-266 | on a consistent book, the debt shown is the signed sum of the rows shown |
| Clients.StoreThenChangeDebt | app/Http/Controllers/ClientController.php:180-196 | opening a client with debt d and then posting a change of a gives debt d ± a |
| Debts.CreateDebtAsWritten | app/Models/Debt.php:29-44 | the row is always saved and no client changes; the answer is 500 exactly when the row's owner exists |
| Debts.UpdateDebtAsWritten | app/Models/Debt.php:33-44 | the change is always saved and no client changes; the answer is 500 exactly when the row's owner exists |
| Debts.CreateAsWrittenLeavesStaleDebt | app/Models/Debt.php:29-46 | for a counted row of an existing client, the code saves the same rows as the intended hook, answers 500 and leaves the book inconsistent, where the intended hook keeps it consistent |
| Debts.SoftDeleteAsWrittenLeavesStaleDebt | app/Models/Debt.php:33-46 | soft-deleting a counted row answers 500, leaves every client as it was and the book inconsistent |
| Clients.StoreAsWritten | app/Http/Controllers/ClientController.php:169-196 | 422 as the intended `store`; otherwise always 500, with the client and its opening row saved exactly as the intended `store` saves them |
| Clients.ChangeDebtAsWritten | app/Http/Controllers/ClientController.php:474-497 | 404 and 422 as the intended `changeDebt`; never a success; a valid request saves the same rows as the intended one, answers 500 and changes no client |
| Clients.ChangeAsWrittenLeavesStaleDebt | app/Http/Controllers/ClientController.php:491-497 | a non-zero change the intended endpoint accepts, keeping the book consistent, is answered 500 as written and leaves the book inconsistent |
| Clients.ShowAsWritten | app/Http/Controllers/ClientController.php:262-272 | never a success: 404 exactly when the intended `show` finds no client, 500 otherwise |
| Clients.StoreThenChangeDebtAsWritten | app/Http/Controllers/ClientController.php:180-196 | opening a client with debt d and then posting a change answers 500 twice; the debt stays d, and a non-zero change leaves the book inconsistent |
| Firms.Store | app/Http/Controllers/FirmController.php:163-206 | 422 unless the debt is >= 0 and the required fields are filled and fit; otherwise one live firm with the given fields and one opening 'oldi' row for the debt, whose balance equals that debt |
| Firms.BalanceIsRowsSum | app/Models/FirmDebt.php:37-38 | the balance is the signed sum over every row of the firm |
| Firms.Show | app/Http/Controllers/FirmController.php:270-286 | 404 for a missing or soft-deleted firm; otherwise all of the firm's rows, newest first |
| Firms.LiveFirms | app/Http/Controllers/FirmController.php:90 | keeps exactly the firms that are not soft-deleted |
| Firms.Index | app/Http/Controllers/FirmController.php:88-99 | lists exactly the firms that are not soft-deleted |
| Firms.ShowAgreesWithDebt | app/Http/Controllers/FirmController.php:272-274 | on a consistent registry, the debt shown is the signed sum of the rows shown |
| Firms.Update | app/Http/Controllers/FirmController.php:362-392 | 404 for a soft-deleted firm; debt, flag and ledger cannot change |
| Firms.Destroy | app/Http/Controllers/FirmController.php:426-443 | 404 for a soft-deleted firm; otherwise only the flag is set |
| Firms.DestroyTwiceNotFound | app/Http/Controllers/FirmController.php:428-437 | deleting the same firm a second time answers 404 |
| Firms.ChangeDebtUnder | app/Http/Controllers/FirmController.php:505-533 | 404 for a missing or deleted firm; 422 for a negative amount or a foreign status; a row is appended exactly when the amount reaches the `amount` column, and then the debt moves by ±amount |
| Firms.MassAssigned | app/Models/FirmDebt.php:10-15 | an attribute survives exactly when its key is fillable, with its value unchanged |
| Firms.FilledAmount | app/Http/Controllers/FirmController.php:522-527 | the row gets an `amount` exactly when the value is passed under the key `amount` |
| Firms.ChangeDebtAsWritten | app/Http/Controllers/FirmController.php:522-527 | with the amount under key `debt`, no request ever appends a row or changes the registry |
| Firms.ChangeDebt | app/Http/Controllers/FirmController.php:505-533 | the intended handler: a valid request on a live firm appends one row and moves the debt by ±amount |
| Firms.AsWrittenLosesAcceptedChange | app/Http/Controllers/FirmController.php:522-527 | every request the intended handler accepts with a non-zero amount is answered 500 as written |
| Payroll.AccrualOnDay | app/Http/Controllers/WorkerController.php:24-32 | on day start+k the accrual is k·rate before 11:00 and (k+1)·rate from 11:00 on |
| Payroll.CutoffAddsOneDay | app/Http/Controllers/WorkerController.php:29-30 | on a fixed date, any hour >= 11 pays exactly one rate more than any hour < 11 |
| Payroll.Index | app/Http/Controllers/WorkerController.php:85-91 | working workers get the accrual as `summa`; all others keep what was stored |
| Payroll.Store | app/Http/Controllers/WorkerController.php:149-173 | 422 unless name and phone are filled and fit and the rate is >= 0 and divisible by 100; a new worker is working with `summa = 0` under a fresh id |
| Payroll.Show | app/Http/Controllers/WorkerController.php:231-253 | 404 for an unknown id; a working worker's `summa` is rewritten with the accrual, a stopped one is left alone |
| Payroll.Update | app/Http/Controllers/WorkerController.php:323-362 | 404 for an unknown worker, 422 for an invalid patch; status only 'ishlayabdi' or 'ishlamayabdi'; every sent field (name, phone, stored image, rate, start day, status) replaces the stored one and the rest are kept; other workers, the pay rows and the id counter are untouched; after the patch, a working worker's `summa` is the accrual for the new rate and start day, a stopped worker's is unchanged |
| Payroll.ShowAfterUpdateChangesNothing | app/Http/Controllers/WorkerController.php:231-253 | a `show` right after a successful `update`, at the same clock, leaves the staff and the answer as `update` left them |
| Payroll.Destroy | app/Http/Controllers/WorkerController.php:396-417 | 404 for an unknown id; otherwise the worker is removed |
| Payroll.ChangePay | app/Http/Controllers/WorkerController.php:483-522 | 422 unless amount >= 0 and status is 'oldi' or 'berdi'; one pay row is appended; `summa` becomes (accrual if working, else stored value) minus the amount for 'oldi', plus it for 'berdi' |
| Payroll.PayMovesStoppedWorker | app/Http/Controllers/WorkerController.php:509-515 | for a stopped worker the pay moves `summa` by exactly ±amount |
| Payroll.PayLostOnShow | app/Http/Controllers/WorkerController.php:244-247 | after a non-zero pay on a working worker, a `show` at the same clock brings `summa` back to the plain accrual |
| DailySweep.Handle | app/Console/Commands/UpdateWorkerSumma.php:14-27 | each working worker gets `summa = (days + 1)·rate`; all other workers are unchanged |
| DailySweep.SweepIdempotent | app/Console/Commands/UpdateWorkerSumma.php:21-23 | a second run on the same day changes nothing |
| DailySweep.SweepAgreesAfterCutoff | app/Console/Commands/UpdateWorkerSumma.php:18-24 | at any hour >= 11 the sweep's result equals the accrual the listing writes |
| DailySweep.SweepAheadBeforeCutoff | app/Console/Commands/UpdateWorkerSumma.php:21 | before 11:00 the sweep is exactly one rate ahead of the listing for a working worker |
| Sales.PriceKey | app/Http/Controllers/SaleController.php:605-607 | the full table: (optom, dona), (optom, other unit), (other type, dona), (other type, other unit) select the four price fields, each exactly in its case |
| Sales.HandlersUseOptomPrices | app/Http/Controllers/SaleController.php:179-181 | create and item update only ever pick an optom price field |
| Sales.PricedItem | app/Http/Controllers/SaleController.php:176-194 | the stored item has subtotal = quantity × price; its price is the product's optom field for the unit when it has a product, else the requested price; its name is kept only without a product |
| Sales.NewSaleValid | app/Http/Controllers/SaleController.php:197-200 | a new sale whose total is the sum of its own items' subtotals keeps every sale's total consistent |
| Sales.PriceItems | app/Http/Controllers/SaleController.php:174-198 | one stored row per request entry, in request order, and a running total equal to the sum of their subtotals |
| Sales.StoreOptomchi | app/Http/Controllers/SaleController.php:141-208 | 422 for a blank or over-long buyer field, an item without a product and without a name, no items, quantity < 1, an unknown unit or a negative price; otherwise a buyer of type 'optom', one sale, one item per entry in order, and a total equal to the sum of the new subtotals |
| Sales.Kept | app/Http/Controllers/SaleController.php:409-413 | a buyer field takes the new value only when it is present and PHP-truthy |
| Sales.PatchBuyer | app/Http/Controllers/SaleController.php:409-413 | each of name, phone and address is kept unless a truthy new value is given; other buyers, sales and items are untouched |
| Sales.OverwriteTotal | app/Http/Controllers/SaleController.php:417-420 | a direct total is written only to a sale of this buyer, and nothing else changes |
| Sales.LastTotal | app/Http/Controllers/SaleController.php:416-421 | the value is the total of the last entry naming the sale, or the stored one when no entry names it |
| Sales.ApplySaleTotals | app/Http/Controllers/SaleController.php:415-422 | each sale of this buyer ends with the total of the last entry naming it (or keeps its own); the loop never touches items, keeps foreign keys and subtotals, and leaves every sale of another buyer as it was |
| Sales.OverwriteConsistentIff | app/Http/Controllers/SaleController.php:419 | on a consistent shop, a direct overwrite keeps every total consistent exactly when the value equals the sale's item sum |
| Sales.ApplyItemUpdate | app/Http/Controllers/SaleController.php:426-441 | an unknown item or another buyer's item is skipped; the entry raises, writing nothing, exactly when the item's sale is gone or it is this buyer's product item and `unit` is absent; otherwise the item takes the sent quantity and unit, the product's optom price for the unit (else the sent or the old price) and subtotal = quantity × price, its sale's total becomes the sum of its subtotals, and every other item and sale is as it was |
| Sales.WriteItem | app/Http/Controllers/SaleController.php:428-440 | the item takes the sent quantity and unit, the product's optom price for the unit (else the sent or old price) and subtotal = quantity × price, and its sale's total becomes the sum of its subtotals; nothing else changes |
| Sales.ItemUpdateKeepsOthers | app/Http/Controllers/SaleController.php:437-440 | updating an item leaves the totals of all other sales unchanged |
| Sales.ApplyItemUpdates | app/Http/Controllers/SaleController.php:424-443 | the item loop keeps every sale total that was consistent consistent, foreign keys and subtotals, leaves the items and sales of other buyers as they were, and leaves every item that no entry names as it was |
| Sales.FindItemSameIds | app/Http/Controllers/SaleController.php:426 | an item lookup by id finds the same position in two lists with the same ids |
| Sales.StepKeepsLookup | app/Http/Controllers/SaleController.php:426-427 | one entry keeps every id at its place and every item's buyer |
| Sales.ItemUpdatesWriteHead | app/Http/Controllers/SaleController.php:424-443 | the first entry, when no later entry names its item, leaves in that item what it sent |
| Sales.ItemUpdatesWriteLast | app/Http/Controllers/SaleController.php:424-443 | after a loop that raises nowhere, an item of this buyer holds what the last entry naming it sent: its quantity and unit when sent, the product's optom price for the sent unit (or the sent price without a product), and subtotal = quantity × price |
| Sales.ItemUpdatesRecomputeTouched | app/Http/Controllers/SaleController.php:437-440 | after a loop that raises nowhere, every sale of this buyer with an item some entry names stores the sum of its subtotals, whatever it stored before |
| Sales.ItemUpdatesKeepUntouched | app/Http/Controllers/SaleController.php:424-443 | a sale none of whose items any entry names keeps its record |
| Sales.ItemUpdatesSplit | app/Http/Controllers/SaleController.php:424-443 | the loop over two runs of entries is the first run followed, unless it raised, by the second: writes before the entry that raises stay |
| Sales.UpdateOptomchi | app/Http/Controllers/SaleController.php:388-454 | 404 for an unknown buyer, 422 for a blank or over-long buyer field or an invalid entry, 500 when an entry raises, with the writes before it kept (`Sales.ItemUpdatesSplit`); the buyer's fields are kept unless a truthy value is sent; other buyers and their sales and items are untouched; items no entry names are untouched; without direct totals every sale total stays consistent |
| Sales.UpdateOptomchiWrites | app/Http/Controllers/SaleController.php:415-443 | on success, a sale of the buyer that no item entry touches ends with the last direct total sent for it; a sale with a named item stores the sum of its subtotals; each named item holds what the last entry naming it sent; an item no entry names is unchanged |
| Sales.DirectTotalBreaksConsistency | app/Http/Controllers/SaleController.php:415-422 | a lone direct total that differs from the sale's item sum is accepted and leaves the totals inconsistent |
| Sales.OneItemEntryRaisesIff | app/Http/Controllers/SaleController.php:424-443 | a request with one item entry and nothing else succeeds exactly unless the entry is for a product item of this buyer and leaves out `unit` |
| Sales.KeepItems | app/Http/Controllers/SaleController.php:497 | the cascade keeps exactly the items whose sale survives |
| Sales.KeepItemsTotal | app/Http/Controllers/SaleController.php:497 | a surviving sale's item sum is unchanged by the cascade |
| Sales.WithoutBuyerValid | app/Http/Controllers/SaleController.php:495-499 | deleting a buyer with its sales and their items keeps every remaining total consistent |
| Sales.WithoutItemValid | app/Http/Controllers/SaleController.php:500-505 | deleting an item and subtracting its subtotal keeps every total consistent |
| Sales.DestroyOptomchi | app/Http/Controllers/SaleController.php:489-514 | an id that names a buyer deletes the buyer, its sales and their items, even if an item has the same id; otherwise an item id deletes that item and lowers its sale's total by its subtotal; otherwise 404 |
| Sales.GetProductPrice | app/Http/Controllers/SaleController.php:598-611 | 404 for an unknown product; otherwise the price of the field the table picks |

## Findings

| source | as written | input that shows it | evidently intended | confidence | as-written member | corrected member |
|---|---|---|---|---|---|---|
| app/Http/Controllers/FirmController.php:522-527 | the amount is passed to `FirmDebt::create` under the key `debt`. That key is not fillable (app/Models/FirmDebt.php:10-15), so the row has no `amount`. The `amount` column is NOT NULL with no default (database/migrations/2025_07_28_145515_create_firm_debts_table.php:17), so the insert fails and the firm's debt never moves | a valid request on a live firm: `debt = 5000`, `status = 'berdi'`, `recorded_by = 'Admin'` | the amount fills `amount`: one row is appended and the firm's debt moves by ±debt | medium (not executed; relies on the database rejecting the missing NOT NULL value) | Firms.ChangeDebtAsWritten | Firms.ChangeDebt |
| app/Models/Debt.php:42 | the `created` and `updated` hooks call `$client->debts()`, but `Client` declares no `debts` relation (app/Models/Client.php:7-21), so the call raises after the row is saved | any row created for an existing client, e.g. through `change-debt` | the hook recomputes the owner's debt from its non-deleted rows | high (not executed) | Debts.CreateDebtAsWritten | Debts.CreateDebt |
| app/Http/Controllers/ClientController.php:190-196 | `store` saves the client and its opening row, then the row's hook raises, so every valid `store` answers 500 | `name = 'Ali'`, `info = 'x'`, `phone = '998'`, an image, `debt = '100'`, `recorded_by = 'Admin'` | 201 with the new client, whose debt equals its one opening row | high (not executed) | Clients.StoreAsWritten | Clients.Store |
| app/Http/Controllers/ClientController.php:491-497 | `changeDebt` saves the row, then its hook raises: the answer is 500 and the client's debt does not move | an existing client with debt 0: `amount = 100`, `status = 'oldi'`, `recorded_by = 'Admin'`; the row is saved and the debt stays 0 | 201, and the debt becomes 100 | high (not executed) | Clients.ChangeDebtAsWritten | Clients.ChangeDebt |
| app/Http/Controllers/ClientController.php:264-266 | `show` eager-loads the undeclared `debts` relation, which raises for every existing client | `GET /clients/1` for an existing client 1 | the client with its non-deleted rows, newest first | high (not executed) | Clients.ShowAsWritten | Clients.Show |

## Left out

- HTTP routing, bearer-token auth and JSON rendering. Validation rules appear as predicates with a 422 answer.
- Pagination and the LIKE search filters of the `index` actions (client name/phone, firm name, worker name).
- Database queries. The SQL `CASE WHEN` sum is the pure fold `Ledger.Total`.
- Money types. Amounts and debts are stored as strings. They are validated as `numeric`, except a client's opening debt, which is only `required|string` (app/Http/Controllers/ClientController.php:176). The model uses `int`, so fractional amounts and non-numeric client debt strings are not modelled.
- ORM mass-assignment mismatches other than the finding. The model treats each of these as if it worked as intended:
  - `Sale` is created with `optomchi_id`, but its fillable list has `optom_id` (app/Models/Sale.php:9).
  - `Optom`'s fillable list lacks `sale_type` (app/Models/Optom.php:9).
  - The price keys `optom_dona_narxi` and the others are not columns of the products table (database/migrations/2025_07_28_152454_create_products_table.php:24-27).
  - A product is reduced to the four prices its fields yield.
- Sales.StoreOptomchi: assumes the `unique:optomchilar,phone` rule (app/Http/Controllers/SaleController.php:145) names the `optoms` table, and that the `created_by` value `Optom::create` passes has a column. No migration creates an `optomchilar` table, and the `optoms` migrations add `recorded_by` and no `created_by` (database/migrations/2025_08_09_045052_create_optoms_table.php:11-19). Taken literally, every valid request would answer 500. Uniqueness of buyer phones is not modelled.
- Sales.UpdateOptomchi: assumes the same of the `unique:optomchilar,phone,{id}` rule (app/Http/Controllers/SaleController.php:397). Taken literally, every request that sends a phone would answer 500.
- Payroll.Store: assumes `divisible_by:100` (app/Http/Controllers/WorkerController.php:154) is a rule the application registers, meaning "a multiple of 100". It is not a built-in Laravel rule, and the rule registration is not part of this model. Without one, every request would answer 500.
- Payroll.Update: assumes the same of `divisible_by:100` (app/Http/Controllers/WorkerController.php:337). Without it, every request that sends `amount` would answer 500.
- Clients.Index: takes the `is_deleted` filter as a boolean. The handler compares the raw query string with the boolean column, and the database's coercion of strings such as `'true'` is not modelled.
- Input middleware (TrimStrings, ConvertEmptyStringsToNull) is not modelled beyond `required`: a required string must contain a non-blank character. A blank optional value sent to an update (`sometimes|string`) is stored as sent.
- Sales.StoreOptomchi: reads `required_if:product_id,null` per item, so a name is required for each item without a product. The rule names the top-level `product_id`, which the request does not carry. Depending on the Laravel version this makes a name required on every item or on none.
- Carbon date parsing and the Asia/Tashkent timezone. Days are integers. `DaysBetween` is the absolute day difference, which is Carbon 2's default for `diffInDays`. For a start day on or before today it is today − start, which is the only case the accrual lemmas use.
- Scheduler mechanics (app/Console/Kernel.php). The sweep is modelled as what the job does when it runs.
- Image upload and deletion in `Storage`. A worker's image is the stored path, if one is given.
- The pay rows `show` returns for a worker, and what happens to a deleted worker's pay rows. Only appending pay rows is modelled.
- The read-only `showOptomchi`, `indexOptomchilar` and `getProducts`, as well as OrderController and ProductsController. They are plain reads or CRUD with no derived state.
- Request shapes that PHP would reject while reading keys. These are: an absent `items.*.product_id` (treated as null), an absent `sales.*.id` or `sales.*.total_sum`, an absent `sale_items.*.id` (`sometimes|required` lets it through, then reading it raises), and a product id of 0 (PHP-falsy).
- Ordering ties in `created_at`. "Newest first" is the reverse of insertion order.
- Concurrent read-modify-write races on `summa` and on the debt columns. The model is sequential.
- Debts.CreateDebt: states the hook with the `debts()` relation in place. The code as it stands is `Debts.CreateDebtAsWritten` (see Findings).
- Debts.UpdateDebt: states the hook with the relation in place; the code as it stands is `Debts.UpdateDebtAsWritten`. When a row moves to another client, the old owner is left stale (`Debts.MovedRowLeavesOldOwnerStale`).
- Debts.UpdateClientDebt: states the recomputation with the relation in place. As written it raises for every existing owner.
- Debts.SoftDeleteRow: states the intended hook. As written the flag is saved and the debt is not lowered (`Debts.SoftDeleteAsWrittenLeavesStaleDebt`).
- Clients.Store: states the intended `store`. As written every valid request answers 500 (`Clients.StoreAsWritten`).
- Clients.ChangeDebt: states the intended `changeDebt`. As written the row is saved, the answer is 500 and the debt does not move (`Clients.ChangeDebtAsWritten`).
- Clients.Show: states the intended `show`. As written every existing client answers 500 (`Clients.ShowAsWritten`).
- Clients.ShowAgreesWithDebt: holds for the intended `show`. As written no rows are shown.
- Clients.StoreThenChangeDebt: holds for the intended endpoints. As written see `Clients.StoreThenChangeDebtAsWritten`.
- Sales.UpdateOptomchi: states consistency of the totals only for requests without direct `sales` totals, because a direct total can break consistency (`Sales.OverwriteConsistentIff`).

=== FILE: clients.dfy ===
/** The client endpoints (`ClientController`).

    Controllers touch the ledger only by appending rows; the balance itself is
    always written by the `Debt` hooks. Validation failures and unknown ids
    answer before anything is written.

    `Store`, `ChangeDebt` and `Show` state the endpoints with the `debts()`
    relation on `Client` that the code calls; the members ending in
    `AsWritten` state what they do without it.
 */
module Clients {
  import opened Outcome
  import Ledger
  import opened Debts

  /** The body of `POST /clients`. `image` is `None` when the key is absent
      and `Some(None)` when it is sent as null. */
  datatype NewClient = NewClient(
    name: string,
    info: string,
    phone: string,
    image: Option<Option<string>>,
    debt: int,
    recordedBy: string)

  /** The body of `PUT /clients/{id}`: only these keys are accepted. */
  datatype ClientPatch = ClientPatch(
    name: Option<string>,
    info: Option<string>,
    phone: Option<string>,
    image: Option<Option<string>>,
    recordedBy: Option<string>)

  /** The `required|string` keys must be filled, and `max:n` holds where given. */
  predicate StoreValid(req: NewClient) {
    && RequiredFits(req.name, 255)
    && Filled(req.info)
    && RequiredFits(req.phone, 20)
    && RequiredFits(req.recordedBy, 255)
  }

  /** `store`: create the client, then its opening 'oldi' row for the given
      debt. The debt is validated only as a string, so a negative value passes.
      An absent `image` key is read from the validated data and raises. */
  function Store(b: Book, req: NewClient): (r: Reply<Book>)
    ensures !StoreValid(req) ==> r == Reply(b, Failed(ValidationFailed))
    ensures StoreValid(req) && req.image.None? ==> r == Reply(b, Failed(ServerError))
    ensures r.status == Done <==> StoreValid(req) && req.image.Some?
    ensures r.status == Done ==>
      var n := |b.clients|;
      && |r.state.clients| == n + 1
      && r.state.clients[..n] == b.clients
      && r.state.debts == b.debts + [Debt(n, req.debt, "oldi", req.recordedBy, false)]
      && r.state.clients[n].name == req.name
      && r.state.clients[n].info == req.info
      && r.state.clients[n].phone == req.phone
      && r.state.clients[n].image == req.image.value
      && r.state.clients[n].recordedBy == req.recordedBy
      && !r.state.clients[n].deleted
    ensures r.status == Done && Owned(b) ==> r.state.clients[|b.clients|].debt == req.debt
    ensures Valid(b) ==> Valid(r.state)
  {
    if !StoreValid(req) then Reply(b, Failed(ValidationFailed))
    else if req.image.None? then Reply(b, Failed(ServerError))
    else
      var n := |b.clients|;
      var client := Client(req.name, req.info, req.phone, req.image.value, req.debt, req.recordedBy, false);
      var b1 := b.(clients := b.clients + [client]);
      var row := Debt(n, req.debt, "oldi", req.recordedBy, false);
      var b2 := CreateDebt(b1, row);
      Ledger.TotalAppend(b.debts, row, ClientShare(n));
      AppendKeepsOthers(b.debts, row);
      assert Owned(b) ==> ClientBalance(b.debts, n) == 0 by {
        if Owned(b) {
          NoRowsNoBalance(b.debts, n);
        }
      }
      Reply(b2, Done)
  }

  /** The `change-debt` body: `amount` numeric and at least 0, status one of the two directions. */
  predicate ChangeValid(amount: int, status: string, recordedBy: string) {
    && amount >= 0
    && (status == "oldi" || status == "berdi")
    && RequiredFits(recordedBy, 255)
  }

  /** `changeDebt`: append one non-deleted row for an existing client. The
      client's soft-delete flag is not looked at. */
  function ChangeDebt(b: Book, id: nat, amount: int, status: string, recordedBy: string): (r: Reply<Book>)
    ensures id >= |b.clients| ==> r == Reply(b, Failed(NotFound))
    ensures id < |b.clients| && !ChangeValid(amount, status, recordedBy) ==> r == Reply(b, Failed(ValidationFailed))
    ensures r.status == Done <==> id < |b.clients| && ChangeValid(amount, status, recordedBy)
    ensures r.status == Done ==>
      && r.state.debts == b.debts + [Debt(id, amount, status, recordedBy, false)]
      && |r.state.clients| == |b.clients|
      && (forall c :: 0 <= c < |b.clients| && c != id ==> r.state.clients[c] == b.clients[c])
    ensures r.status == Done && Consistent(b) ==>
      r.state.clients[id].debt == b.clients[id].debt + (if status == "oldi" then amount else -amount)
    ensures Valid(b) ==> Valid(r.state)
  {
    if id >= |b.clients| then Reply(b, Failed(NotFound))
    else if !ChangeValid(amount, status, recordedBy) then Reply(b, Failed(ValidationFailed))
    else Reply(CreateDebt(b, Debt(id, amount, status, recordedBy, false)), Done)
  }

  predicate PatchValid(p: ClientPatch) {
    && OptionFitsIn(p.name, 255)
    && OptionFitsIn(p.phone, 20)
    && OptionFitsIn(p.recordedBy, 255)
  }

  function Patched(c: Client, p: ClientPatch): Client {
    c.(name := p.name.GetOr(c.name),
       info := p.info.GetOr(c.info),
       phone := p.phone.GetOr(c.phone),
       image := p.image.GetOr(c.image),
       recordedBy := p.recordedBy.GetOr(c.recordedBy))
  }

  /** `update`: only the descriptive fields can change; `debt` and the
      soft-delete flag cannot, and the ledger is not touched. */
  function Update(b: Book, id: nat, p: ClientPatch): (r: Reply<Book>)
    ensures id >= |b.clients| ==> r == Reply(b, Failed(NotFound))
    ensures id < |b.clients| && !PatchValid(p) ==> r == Reply(b, Failed(ValidationFailed))
    ensures r.status == Done <==> id < |b.clients| && PatchValid(p)
    ensures r.status == Done ==>
      && r.state.debts == b.debts
      && |r.state.clients| == |b.clients|
      && r.state.clients[id].debt == b.clients[id].debt
      && r.state.clients[id].deleted == b.clients[id].deleted
      && r.state.clients == b.clients[id := Patched(b.clients[id], p)]
    ensures Valid(b) ==> Valid(r.state)
  {
    if id >= |b.clients| then Reply(b, Failed(NotFound))
    else if !PatchValid(p) then Reply(b, Failed(ValidationFailed))
    else Reply(b.(clients := b.clients[id := Patched(b.clients[id], p)]), Done)
  }

  /** `destroy`: a soft delete. Only the flag changes; the client's rows stay
      and keep counting, and the stored debt is left as it is. */
  function Destroy(b: Book, id: nat): (r: Reply<Book>)
    ensures id >= |b.clients| ==> r == Reply(b, Failed(NotFound))
    ensures id < |b.clients| ==>
      r == Reply(b.(clients := b.clients[id := b.clients[id].(deleted := true)]), Done)
    ensures Valid(b) ==> Valid(r.state)
  {
    if id >= |b.clients| then Reply(b, Failed(NotFound))
    else Reply(b.(clients := b.clients[id := b.clients[id].(deleted := true)]), Done)
  }

  /** The lookup in `destroy` does not filter on the flag, so deleting twice succeeds twice. */
  lemma DestroyIdempotent(b: Book, id: nat)
    requires id < |b.clients|
    ensures Destroy(Destroy(b, id).state, id) == Destroy(b, id)
  {
    assert Destroy(b, id).state.clients[id := Destroy(b, id).state.clients[id].(deleted := true)]
        == Destroy(b, id).state.clients;
  }

  /** The clients whose flag equals `want`, in id order. */
  function Listed(cs: seq<Client>, want: bool): (r: seq<Client>)
    ensures forall c :: c in r ==> c in cs && c.deleted == want
    ensures forall i :: 0 <= i < |cs| && cs[i].deleted == want ==> cs[i] in r
    decreases |cs|
  {
    if |cs| == 0 then []
    else
      var tail := Listed(cs[1..], want);
      assert forall i :: 1 <= i < |cs| ==> cs[i] == cs[1..][i - 1];
      if cs[0].deleted == want then [cs[0]] + tail else tail
  }

  /** `index` without the name/phone search and pagination: the `is_deleted`
      filter defaults to non-deleted clients. */
  function Index(b: Book, isDeleted: Option<bool>): (r: seq<Client>)
    ensures isDeleted.None? ==> forall c :: c in r ==> !c.deleted
    ensures forall c :: c in r ==> c in b.clients && c.deleted == isDeleted.GetOr(false)
    ensures forall i :: 0 <= i < |b.clients| && b.clients[i].deleted == isDeleted.GetOr(false) ==> b.clients[i] in r
  {
    Listed(b.clients, isDeleted.GetOr(false))
  }

  /** `show`: the client with its non-deleted rows, newest first. The lookup
      does not filter on the client's own flag. */
  function Show(b: Book, id: nat): (r: Option<(Client, seq<Debt>)>)
    ensures r.None? <==> id >= |b.clients|
    ensures r.Some? ==> r.value.0 == b.clients[id]
    ensures r.Some? ==> forall d :: d in r.value.1 ==> d in b.debts && d.clientId == id && !d.deleted
    ensures r.Some? ==>
      forall i :: 0 <= i < |b.debts| && b.debts[i].clientId == id && !b.debts[i].deleted ==> b.debts[i] in r.value.1
    ensures r.Some? ==> Ledger.Reverse(r.value.1) == Visible(b.debts, id)
  {
    if id >= |b.clients| then None
    else
      var rows := Ledger.Reverse(Visible(b.debts, id));
      assert Ledger.Reverse(rows) == Visible(b.debts, id) by {
        Ledger.ReverseTwice(Visible(b.debts, id));
      }
      assert forall d :: d in rows <==> d in Visible(b.debts, id) by {
        Ledger.ReverseSameRows(Visible(b.debts, id));
        assert forall d :: d in rows <==> d in multiset(rows);
      }
      Some((b.clients[id], rows))
  }

  /** On a consistent book, the debt `show` reports is the signed sum of
      exactly the rows it lists. */
  lemma ShowAgreesWithDebt(b: Book, id: nat)
    requires Consistent(b) && id < |b.clients|
    ensures Show(b, id).Some?
    ensures Show(b, id).value.0.debt == Ledger.Total(Show(b, id).value.1, SignedShare())
  {
    var v := Visible(b.debts, id);
    BalanceIsVisibleSum(b.debts, id);
    Ledger.ReverseSameRows(v);
    Ledger.TotalPermutation(Ledger.Reverse(v), v, SignedShare());
  }

  /** The worked example of the API: a client opened with a debt, then one
      change-debt request, ends with the opening debt shifted by that request. */
  lemma StoreThenChangeDebt(b: Book, req: NewClient, amount: int, status: string, recordedBy: string)
    requires Valid(b) && StoreValid(req) && req.image.Some? && ChangeValid(amount, status, recordedBy)
    ensures var r1 := Store(b, req);
      var r2 := ChangeDebt(r1.state, |b.clients|, amount, status, recordedBy);
      && r2.status == Done
      && r2.state.clients[|b.clients|].debt == req.debt + (if status == "oldi" then amount else -amount)
  {
  }

  // ------------------------------------------------------------ as written

  /** `store` as the code stands: the client and its opening row are saved,
      then the row's `created` hook raises. The book is left as the intended
      `store` leaves it, since the stored debt already equals the one row;
      only the answer differs. */
  function StoreAsWritten(b: Book, req: NewClient): (r: Reply<Book>)
    ensures !StoreValid(req) ==> r == Reply(b, Failed(ValidationFailed))
    ensures StoreValid(req) ==> r.status == Failed(ServerError)
    ensures StoreValid(req) && req.image.None? ==> r.state == b
    ensures StoreValid(req) && req.image.Some? && Owned(b) ==> r.state == Store(b, req).state
    ensures Valid(b) ==> Valid(r.state)
  {
    if !StoreValid(req) then Reply(b, Failed(ValidationFailed))
    else if req.image.None? then Reply(b, Failed(ServerError))
    else
      var n := |b.clients|;
      var client := Client(req.name, req.info, req.phone, req.image.value, req.debt, req.recordedBy, false);
      var b1 := b.(clients := b.clients + [client]);
      var row := Debt(n, req.debt, "oldi", req.recordedBy, false);
      var saved := CreateDebtAsWritten(b1, row).state;
      assert Owned(b) ==> saved == Store(b, req).state by {
        if Owned(b) {
          NoRowsNoBalance(b.debts, n);
          Ledger.TotalAppend(b.debts, row, ClientShare(n));
          assert saved.clients[n := client] == saved.clients;
        }
      }
      Reply(saved, Failed(ServerError))
  }

  /** `changeDebt` as the code stands: for a valid request the row is saved,
      the hook raises, and the client keeps its old debt. */
  function ChangeDebtAsWritten(b: Book, id: nat, amount: int, status: string, recordedBy: string): (r: Reply<Book>)
    ensures id >= |b.clients| ==> r == Reply(b, Failed(NotFound))
    ensures id < |b.clients| && !ChangeValid(amount, status, recordedBy) ==> r == Reply(b, Failed(ValidationFailed))
    ensures r.status != Done
    ensures id < |b.clients| && ChangeValid(amount, status, recordedBy) ==>
      && r.status == Failed(ServerError)
      && r.state.clients == b.clients
      && r.state.debts == ChangeDebt(b, id, amount, status, recordedBy).state.debts
  {
    if id >= |b.clients| then Reply(b, Failed(NotFound))
    else if !ChangeValid(amount, status, recordedBy) then Reply(b, Failed(ValidationFailed))
    else CreateDebtAsWritten(b, Debt(id, amount, status, recordedBy, false))
  }

  /** A change the intended endpoint accepts with a non-zero amount is saved
      as written but never reaches the client's debt: the book that was
      consistent no longer is. */
  lemma ChangeAsWrittenLeavesStaleDebt(b: Book, id: nat, amount: int, status: string, recordedBy: string)
    requires Consistent(b) && id < |b.clients| && ChangeValid(amount, status, recordedBy) && amount != 0
    ensures ChangeDebt(b, id, amount, status, recordedBy).status == Done
    ensures Consistent(ChangeDebt(b, id, amount, status, recordedBy).state)
    ensures ChangeDebtAsWritten(b, id, amount, status, recordedBy).status == Failed(ServerError)
    ensures !Consistent(ChangeDebtAsWritten(b, id, amount, status, recordedBy).state)
  {
    CreateAsWrittenLeavesStaleDebt(b, Debt(id, amount, status, recordedBy, false));
  }

  /** `show` as the code stands: eager-loading the undeclared `debts`
      relation raises whenever the client exists, so the answer is 404
      exactly where the intended `show` finds nothing, and 500 otherwise. */
  function ShowAsWritten(b: Book, id: nat): (r: Status)
    ensures r != Done
    ensures r == Failed(NotFound) <==> Show(b, id).None?
    ensures r != Failed(NotFound) ==> r == Failed(ServerError)
  {
    if id >= |b.clients| then Failed(NotFound) else Failed(ServerError)
  }

  /** The worked example as the code stands: both requests answer 500, and
      the client's debt stays at the opening amount, so a non-zero change
      leaves the book inconsistent. */
  lemma StoreThenChangeDebtAsWritten(b: Book, req: NewClient, amount: int, status: string, recordedBy: string)
    requires Valid(b) && StoreValid(req) && req.image.Some? && ChangeValid(amount, status, recordedBy)
    ensures var r1 := StoreAsWritten(b, req);
      var r2 := ChangeDebtAsWritten(r1.state, |b.clients|, amount, status, recordedBy);
      && r1.status == Failed(ServerError)
      && r2.status == Failed(ServerError)
      && r2.state.clients[|b.clients|].debt == req.debt
      && (amount != 0 ==> !Consistent(r2.state))
  {
    var r1 := StoreAsWritten(b, req);
    assert r1.state == Store(b, req).state;
    if amount != 0 {
      ChangeAsWrittenLeavesStaleDebt(r1.state, |b.clients|, amount, status, recordedBy);
    }
  }
}

=== FILE: debt.dfy ===
/** The client debt ledger (the `Debt` model).

    A client's `debt` column is derived data: whenever a debt row is created
    or updated, the `created`/`updated` hooks recompute the owning client's
    debt from scratch as the signed sum of that client's rows that are not
    soft-deleted. Rows are never recomputed on a hard delete, because the
    model registers no `deleted` hook.

    The recomputation calls `$client->debts()`, a relation the `Client`
    model does not declare. `CreateDebt`, `UpdateDebt` and `UpdateClientDebt`
    state the hooks with that relation in place; `CreateDebtAsWritten` and
    `UpdateDebtAsWritten` state what the code does as it stands: the row is
    saved and then the hook raises.
 */
module Debts {
  import opened Outcome
  import Ledger

  /** One row of the debts table. */
  datatype Debt = Debt(clientId: nat, amount: int, status: string, recordedBy: string, deleted: bool)

  datatype Client = Client(
    name: string,
    info: string,
    phone: string,
    image: Option<string>,
    debt: int,
    recordedBy: string,
    deleted: bool)

  /** The clients table, where a client's id is its position, and the debts table in insertion order. */
  datatype Book = Book(clients: seq<Client>, debts: seq<Debt>)

  /** What one row adds to client `c`'s balance. */
  function ClientShare(c: nat): Debt -> int {
    (d: Debt) => if d.clientId == c && !d.deleted then Ledger.Signed(d.amount, d.status) else 0
  }

  /** The value the recomputation writes into client `c`'s `debt`. */
  function ClientBalance(debts: seq<Debt>, c: nat): int {
    Ledger.Total(debts, ClientShare(c))
  }

  /** Every debt row belongs to an existing client (the foreign key). */
  ghost predicate Owned(b: Book) {
    forall i :: 0 <= i < |b.debts| ==> b.debts[i].clientId < |b.clients|
  }

  /** Every client's stored debt agrees with its rows. */
  ghost predicate Consistent(b: Book) {
    forall c :: 0 <= c < |b.clients| ==> b.clients[c].debt == ClientBalance(b.debts, c)
  }

  ghost predicate Valid(b: Book) {
    Owned(b) && Consistent(b)
  }

  /** The non-deleted rows of client `c`, oldest first. */
  function Visible(debts: seq<Debt>, c: nat): (r: seq<Debt>)
    ensures forall d :: d in r ==> d in debts && d.clientId == c && !d.deleted
    ensures forall i :: 0 <= i < |debts| && debts[i].clientId == c && !debts[i].deleted ==> debts[i] in r
    decreases |debts|
  {
    if |debts| == 0 then []
    else
      var tail := Visible(debts[1..], c);
      assert forall i :: 1 <= i < |debts| ==> debts[i] == debts[1..][i - 1];
      if debts[0].clientId == c && !debts[0].deleted then [debts[0]] + tail else tail
  }

  /** `updateClientDebt`: overwrite the owning client's `debt` with the signed
      sum of its non-deleted rows; nothing else is written, and nothing at all
      when the row has no owning client. */
  function UpdateClientDebt(b: Book, owner: nat): (r: Book)
    ensures r.debts == b.debts
    ensures |r.clients| == |b.clients|
    ensures owner < |b.clients| ==>
      r.clients[owner] == b.clients[owner].(debt := ClientBalance(b.debts, owner))
    ensures forall c :: 0 <= c < |b.clients| && c != owner ==> r.clients[c] == b.clients[c]
    ensures owner >= |b.clients| ==> r == b
  {
    if owner < |b.clients| then
      b.(clients := b.clients[owner := b.clients[owner].(debt := ClientBalance(b.debts, owner))])
    else
      b
  }

  /** A row of one client leaves every other client's balance where it was. */
  lemma AppendKeepsOthers(debts: seq<Debt>, d: Debt)
    ensures forall c :: c != d.clientId ==> ClientBalance(debts + [d], c) == ClientBalance(debts, c)
  {
    forall c | c != d.clientId
      ensures ClientBalance(debts + [d], c) == ClientBalance(debts, c)
    {
      Ledger.TotalAppend(debts, d, ClientShare(c));
    }
  }

  /** `Debt::create` followed by the `created` hook. */
  function CreateDebt(b: Book, d: Debt): (r: Book)
    ensures r.debts == b.debts + [d]
    ensures |r.clients| == |b.clients|
    ensures forall c :: 0 <= c < |b.clients| && c != d.clientId ==> r.clients[c] == b.clients[c]
    ensures Consistent(b) ==> Consistent(r)
    ensures Owned(b) && d.clientId < |b.clients| ==> Owned(r)
    ensures Consistent(b) && d.clientId < |b.clients| ==>
      r.clients[d.clientId].debt ==
        b.clients[d.clientId].debt + (if d.deleted then 0 else if d.status == "oldi" then d.amount else -d.amount)
  {
    Ledger.TotalAppend(b.debts, d, ClientShare(d.clientId));
    AppendKeepsOthers(b.debts, d);
    UpdateClientDebt(b.(debts := b.debts + [d]), d.clientId)
  }

  /** Saving changes to the row at `k` followed by the `updated` hook, which
      recomputes the client the row belongs to after the change. */
  function UpdateDebt(b: Book, k: nat, d: Debt): (r: Book)
    requires k < |b.debts|
    ensures r.debts == b.debts[k := d]
    ensures |r.clients| == |b.clients|
    ensures forall c :: 0 <= c < |b.clients| && c != d.clientId ==> r.clients[c] == b.clients[c]
    ensures d.clientId < |b.clients| ==> r.clients[d.clientId].debt == ClientBalance(r.debts, d.clientId)
    ensures Consistent(b) && d.clientId == b.debts[k].clientId ==> Consistent(r)
    ensures Owned(b) && d.clientId < |b.clients| ==> Owned(r)
  {
    var debts := b.debts[k := d];
    forall c | c != d.clientId && c != b.debts[k].clientId
      ensures ClientBalance(debts, c) == ClientBalance(b.debts, c)
    {
      Ledger.TotalReplace(b.debts, k, d, ClientShare(c));
    }
    UpdateClientDebt(b.(debts := debts), d.clientId)
  }

  /** Removing a row outright: no hook runs, so no balance is touched. */
  function DeleteDebt(b: Book, k: nat): (r: Book)
    requires k < |b.debts|
    ensures r.clients == b.clients
    ensures |r.debts| == |b.debts| - 1
    ensures multiset(r.debts) + multiset{b.debts[k]} == multiset(b.debts)
  {
    assert b.debts == b.debts[..k] + [b.debts[k]] + b.debts[k + 1..];
    b.(debts := b.debts[..k] + b.debts[k + 1..])
  }

  /** Rows of other clients and soft-deleted rows count for nothing: the
      balance is the signed sum over exactly the rows `Visible` keeps. */
  lemma {:induction false} BalanceIsVisibleSum(debts: seq<Debt>, c: nat)
    ensures ClientBalance(debts, c) == Ledger.Total(Visible(debts, c), SignedShare())
    decreases |debts|
  {
    if |debts| > 0 {
      BalanceIsVisibleSum(debts[1..], c);
      var tail := Visible(debts[1..], c);
      if debts[0].clientId == c && !debts[0].deleted {
        assert Visible(debts, c) == [debts[0]] + tail;
        assert ([debts[0]] + tail)[1..] == tail;
      }
    }
  }

  /** The plain signed contribution of a row, ignoring owner and flag. */
  function SignedShare(): Debt -> int {
    (d: Debt) => Ledger.Signed(d.amount, d.status)
  }

  /** A client with no rows has balance zero. */
  lemma {:induction false} NoRowsNoBalance(debts: seq<Debt>, c: nat)
    requires forall i :: 0 <= i < |debts| ==> debts[i].clientId != c
    ensures ClientBalance(debts, c) == 0
    decreases |debts|
  {
    if |debts| > 0 {
      assert forall i :: 0 <= i < |debts[1..]| ==> debts[1..][i] == debts[i + 1];
      NoRowsNoBalance(debts[1..], c);
    }
  }

  /** The recomputation is a full fold: it does not matter in which order the rows are stored. */
  lemma BalanceIgnoresOrder(a: seq<Debt>, b: seq<Debt>, c: nat)
    requires multiset(a) == multiset(b)
    ensures ClientBalance(a, c) == ClientBalance(b, c)
  {
    Ledger.TotalPermutation(a, b, ClientShare(c));
  }

  /** The recomputation ignores the previous `debt`, so running it twice changes nothing more. */
  lemma RecomputeIdempotent(b: Book, owner: nat, stale: int)
    requires owner < |b.clients|
    ensures UpdateClientDebt(UpdateClientDebt(b, owner), owner) == UpdateClientDebt(b, owner)
    ensures UpdateClientDebt(b.(clients := b.clients[owner := b.clients[owner].(debt := stale)]), owner)
         == UpdateClientDebt(b, owner)
  {
  }

  /** Soft-deleting a row goes through the `updated` hook: the owner's balance
      loses exactly that row's signed amount and stays consistent. */
  lemma SoftDeleteRow(b: Book, k: nat)
    requires Valid(b) && k < |b.debts| && !b.debts[k].deleted
    ensures var r := UpdateDebt(b, k, b.debts[k].(deleted := true));
      && Valid(r)
      && r.clients[b.debts[k].clientId].debt ==
         b.clients[b.debts[k].clientId].debt - Ledger.Signed(b.debts[k].amount, b.debts[k].status)
  {
    var d := b.debts[k];
    Ledger.TotalReplace(b.debts, k, d.(deleted := true), ClientShare(d.clientId));
  }

  /** Moving a counted row to another client recomputes only the new owner:
      the old owner keeps a debt that still includes the row. */
  lemma MovedRowLeavesOldOwnerStale(b: Book, k: nat, d: Debt)
    requires Consistent(b) && k < |b.debts|
    requires b.debts[k].clientId < |b.clients| && d.clientId != b.debts[k].clientId
    requires ClientShare(b.debts[k].clientId)(b.debts[k]) != 0
    ensures !Consistent(UpdateDebt(b, k, d))
  {
    var o := b.debts[k].clientId;
    Ledger.TotalReplace(b.debts, k, d, ClientShare(o));
    assert UpdateDebt(b, k, d).clients[o].debt != ClientBalance(UpdateDebt(b, k, d).debts, o);
  }

  /** A hard delete of a row that counts leaves its client's stored debt stale. */
  lemma HardDeleteLeavesStaleDebt(b: Book, k: nat)
    requires Valid(b) && k < |b.debts|
    requires ClientShare(b.debts[k].clientId)(b.debts[k]) != 0
    ensures !Consistent(DeleteDebt(b, k))
  {
    var c := b.debts[k].clientId;
    Ledger.TotalRemove(b.debts, k, ClientShare(c));
    assert DeleteDebt(b, k).clients[c].debt != ClientBalance(DeleteDebt(b, k).debts, c);
  }

  // ------------------------------------------------------------ as written

  /** `Debt::create` as the code stands: the row is inserted, then the
      `created` hook calls the undeclared `debts()` on the owning client and
      raises. Only a row without an existing owner goes through. */
  function CreateDebtAsWritten(b: Book, d: Debt): (r: Reply<Book>)
    ensures r.state.debts == b.debts + [d] && r.state.clients == b.clients
    ensures r.status == Done <==> d.clientId >= |b.clients|
    ensures r.status != Done ==> r.status == Failed(ServerError)
  {
    var b1 := b.(debts := b.debts + [d]);
    if d.clientId < |b.clients| then Reply(b1, Failed(ServerError)) else Reply(b1, Done)
  }

  /** Saving a change to the row at `k` as the code stands: the change is
      saved, then the `updated` hook raises for an existing owner. */
  function UpdateDebtAsWritten(b: Book, k: nat, d: Debt): (r: Reply<Book>)
    requires k < |b.debts|
    ensures r.state.debts == b.debts[k := d] && r.state.clients == b.clients
    ensures r.status == Done <==> d.clientId >= |b.clients|
    ensures r.status != Done ==> r.status == Failed(ServerError)
  {
    var b1 := b.(debts := b.debts[k := d]);
    if d.clientId < |b.clients| then Reply(b1, Failed(ServerError)) else Reply(b1, Done)
  }

  /** As written, creating a row that counts for an existing client saves the
      same rows as the intended hook but leaves that client's debt stale,
      where the intended hook keeps the book consistent. */
  lemma CreateAsWrittenLeavesStaleDebt(b: Book, d: Debt)
    requires Consistent(b) && d.clientId < |b.clients| && ClientShare(d.clientId)(d) != 0
    ensures CreateDebtAsWritten(b, d).status == Failed(ServerError)
    ensures CreateDebtAsWritten(b, d).state.debts == CreateDebt(b, d).debts
    ensures Consistent(CreateDebt(b, d))
    ensures !Consistent(CreateDebtAsWritten(b, d).state)
  {
    var c := d.clientId;
    Ledger.TotalAppend(b.debts, d, ClientShare(c));
    assert CreateDebtAsWritten(b, d).state.clients[c].debt != ClientBalance(b.debts + [d], c);
  }

  /** As written, soft-deleting a counted row flips the flag but does not
      lower the owner's debt, so the book stops being consistent. */
  lemma SoftDeleteAsWrittenLeavesStaleDebt(b: Book, k: nat)
    requires Valid(b) && k < |b.debts| && ClientShare(b.debts[k].clientId)(b.debts[k]) != 0
    ensures var r := UpdateDebtAsWritten(b, k, b.debts[k].(deleted := true));
      && r.status == Failed(ServerError)
      && r.state.clients == b.clients
      && !Consistent(r.state)
  {
    var d := b.debts[k];
    var c := d.clientId;
    Ledger.TotalReplace(b.debts, k, d.(deleted := true), ClientShare(c));
    assert UpdateDebtAsWritten(b, k, d.(deleted := true)).state.clients[c].debt
        != ClientBalance(b.debts[k := d.(deleted := true)], c);
  }
}

=== FILE: firm_debt.dfy ===
/** The firm debt ledger (the `FirmDebt` model).

    Same recomputation as for clients, with one difference: the firm debts
    table has no soft-delete column, so every row of the firm counts.
 */
module FirmDebts {
  import opened Outcome
  import Ledger

  /** One row of the firm debts table; `amount` is a NOT NULL column without default. */
  datatype FirmDebt = FirmDebt(firmId: nat, amount: int, status: string, recordedBy: Option<string>)

  datatype Firm = Firm(
    name: string,
    supervisor: string,
    sPhone: Option<string>,
    agent: string,
    aPhone: Option<string>,
    currier: string,
    cPhone: Option<string>,
    humo: bool,
    uzcard: bool,
    day: string,
    debt: int,
    deleted: bool)

  /** The firms table, where a firm's id is its position, and the firm debts table. */
  datatype Registry = Registry(firms: seq<Firm>, rows: seq<FirmDebt>)

  /** What one row adds to firm `f`'s balance. */
  function FirmShare(f: nat): FirmDebt -> int {
    (d: FirmDebt) => if d.firmId == f then Ledger.Signed(d.amount, d.status) else 0
  }

  function FirmBalance(rows: seq<FirmDebt>, f: nat): int {
    Ledger.Total(rows, FirmShare(f))
  }

  ghost predicate Owned(g: Registry) {
    forall i :: 0 <= i < |g.rows| ==> g.rows[i].firmId < |g.firms|
  }

  ghost predicate Consistent(g: Registry) {
    forall f :: 0 <= f < |g.firms| ==> g.firms[f].debt == FirmBalance(g.rows, f)
  }

  ghost predicate Valid(g: Registry) {
    Owned(g) && Consistent(g)
  }

  /** `updateFirmDebt`: overwrite the owning firm's `debt` with the signed sum
      of all its rows; nothing else is written, and nothing at all when the
      row has no owning firm. */
  function UpdateFirmDebt(g: Registry, owner: nat): (r: Registry)
    ensures r.rows == g.rows
    ensures |r.firms| == |g.firms|
    ensures owner < |g.firms| ==> r.firms[owner] == g.firms[owner].(debt := FirmBalance(g.rows, owner))
    ensures forall f :: 0 <= f < |g.firms| && f != owner ==> r.firms[f] == g.firms[f]
    ensures owner >= |g.firms| ==> r == g
  {
    if owner < |g.firms| then
      g.(firms := g.firms[owner := g.firms[owner].(debt := FirmBalance(g.rows, owner))])
    else
      g
  }

  /** `FirmDebt::create` followed by the `created` hook. */
  function CreateFirmDebt(g: Registry, d: FirmDebt): (r: Registry)
    ensures r.rows == g.rows + [d]
    ensures |r.firms| == |g.firms|
    ensures forall f :: 0 <= f < |g.firms| && f != d.firmId ==> r.firms[f] == g.firms[f]
    ensures Consistent(g) ==> Consistent(r)
    ensures Owned(g) && d.firmId < |g.firms| ==> Owned(r)
    ensures Consistent(g) && d.firmId < |g.firms| ==>
      r.firms[d.firmId].debt == g.firms[d.firmId].debt + (if d.status == "oldi" then d.amount else -d.amount)
  {
    forall f | f != d.firmId
      ensures FirmBalance(g.rows + [d], f) == FirmBalance(g.rows, f)
    {
      Ledger.TotalAppend(g.rows, d, FirmShare(f));
    }
    Ledger.TotalAppend(g.rows, d, FirmShare(d.firmId));
    UpdateFirmDebt(g.(rows := g.rows + [d]), d.firmId)
  }

  /** Saving changes to the row at `k` followed by the `updated` hook. */
  function UpdateFirmDebtRow(g: Registry, k: nat, d: FirmDebt): (r: Registry)
    requires k < |g.rows|
    ensures r.rows == g.rows[k := d]
    ensures |r.firms| == |g.firms|
    ensures forall f :: 0 <= f < |g.firms| && f != d.firmId ==> r.firms[f] == g.firms[f]
    ensures d.firmId < |g.firms| ==> r.firms[d.firmId].debt == FirmBalance(r.rows, d.firmId)
    ensures Consistent(g) && d.firmId == g.rows[k].firmId ==> Consistent(r)
    ensures Owned(g) && d.firmId < |g.firms| ==> Owned(r)
  {
    var rows := g.rows[k := d];
    forall f | f != d.firmId && f != g.rows[k].firmId
      ensures FirmBalance(rows, f) == FirmBalance(g.rows, f)
    {
      Ledger.TotalReplace(g.rows, k, d, FirmShare(f));
    }
    UpdateFirmDebt(g.(rows := rows), d.firmId)
  }

  /** Moving a counted row to another firm recomputes only the new owner:
      the old firm keeps a debt that still includes the row. */
  lemma MovedRowLeavesOldFirmStale(g: Registry, k: nat, d: FirmDebt)
    requires Consistent(g) && k < |g.rows|
    requires g.rows[k].firmId < |g.firms| && d.firmId != g.rows[k].firmId
    requires Ledger.Signed(g.rows[k].amount, g.rows[k].status) != 0
    ensures !Consistent(UpdateFirmDebtRow(g, k, d))
  {
    var o := g.rows[k].firmId;
    Ledger.TotalReplace(g.rows, k, d, FirmShare(o));
    assert UpdateFirmDebtRow(g, k, d).firms[o].debt != FirmBalance(UpdateFirmDebtRow(g, k, d).rows, o);
  }

  /** A firm with no rows has balance zero. */
  lemma {:induction false} NoRowsNoBalance(rows: seq<FirmDebt>, f: nat)
    requires forall i :: 0 <= i < |rows| ==> rows[i].firmId != f
    ensures FirmBalance(rows, f) == 0
    decreases |rows|
  {
    if |rows| > 0 {
      assert forall i :: 0 <= i < |rows[1..]| ==> rows[1..][i] == rows[i + 1];
      NoRowsNoBalance(rows[1..], f);
    }
  }

  /** The balance does not depend on the order of the rows. */
  lemma BalanceIgnoresOrder(a: seq<FirmDebt>, b: seq<FirmDebt>, f: nat)
    requires multiset(a) == multiset(b)
    ensures FirmBalance(a, f) == FirmBalance(b, f)
  {
    Ledger.TotalPermutation(a, b, FirmShare(f));
  }

  /** The balance does not depend on the previous `debt` value, so a second recomputation changes nothing. */
  lemma RecomputeIdempotent(g: Registry, owner: nat, stale: int)
    requires owner < |g.firms|
    ensures UpdateFirmDebt(UpdateFirmDebt(g, owner), owner) == UpdateFirmDebt(g, owner)
    ensures UpdateFirmDebt(g.(firms := g.firms[owner := g.firms[owner].(debt := stale)]), owner)
         == UpdateFirmDebt(g, owner)
  {
  }

  /** Unlike the client ledger, every row of the firm counts: the balance is
      the signed sum over all rows whose firm id matches. */
  lemma {:induction false} BalanceCountsEveryRow(rows: seq<FirmDebt>, f: nat)
    requires forall i :: 0 <= i < |rows| ==> rows[i].firmId == f
    ensures FirmBalance(rows, f) == Ledger.Total(rows, SignedShare())
    decreases |rows|
  {
    if |rows| > 0 {
      assert forall i :: 0 <= i < |rows[1..]| ==> rows[1..][i] == rows[i + 1];
      BalanceCountsEveryRow(rows[1..], f);
    }
  }

  function SignedShare(): FirmDebt -> int {
    (d: FirmDebt) => Ledger.Signed(d.amount, d.status)
  }
}

=== FILE: firms.dfy ===
/** The firm endpoints (`FirmController`).

    Unlike clients, every firm lookup (`index`, `show`, `update`, `destroy`
    and `change-debt`) treats a soft-deleted firm as missing.
 */
module Firms {
  import opened Outcome
  import Ledger
  import opened FirmDebts

  /** The body of `POST /firms`; a nullable key is `None` when absent and `Some(None)` when null. */
  datatype NewFirm = NewFirm(
    name: string,
    supervisor: string,
    sPhone: Option<Option<string>>,
    agent: string,
    aPhone: Option<Option<string>>,
    currier: string,
    cPhone: Option<Option<string>>,
    humo: bool,
    uzcard: bool,
    day: string,
    debt: int,
    recordedBy: string)

  /** The body of `PUT /firms/{id}`: `debt` and the soft-delete flag are not among the keys. */
  datatype FirmPatch = FirmPatch(
    name: Option<string>,
    supervisor: Option<string>,
    sPhone: Option<Option<string>>,
    agent: Option<string>,
    aPhone: Option<Option<string>>,
    currier: Option<string>,
    cPhone: Option<Option<string>>,
    humo: Option<bool>,
    uzcard: Option<bool>,
    day: Option<string>)

  /** A firm the guarded lookups find: it exists and is not soft-deleted. */
  predicate Live(g: Registry, id: nat) {
    id < |g.firms| && !g.firms[id].deleted
  }

  /** A `nullable|string|max:n` key: absent, null, or at most `n` long. */
  predicate OptionalFits(p: Option<Option<string>>, n: nat) {
    p.None? || OptionFitsIn(p.value, n)
  }

  /** The `required|string|max:n` keys must be filled and fit; phones may be null. */
  predicate StoreValid(req: NewFirm) {
    && RequiredFits(req.name, 255) && RequiredFits(req.supervisor, 255) && RequiredFits(req.agent, 255)
    && RequiredFits(req.currier, 255) && RequiredFits(req.day, 255) && RequiredFits(req.recordedBy, 255)
    && OptionalFits(req.sPhone, 20) && OptionalFits(req.aPhone, 20) && OptionalFits(req.cPhone, 20)
    && req.debt >= 0
  }

  /** `store`: create the firm, then its opening 'oldi' row for the given
      debt. An absent phone key is read from the validated data and raises. */
  function Store(g: Registry, req: NewFirm): (r: Reply<Registry>)
    ensures !StoreValid(req) ==> r == Reply(g, Failed(ValidationFailed))
    ensures r.status == Done <==> StoreValid(req) && req.sPhone.Some? && req.aPhone.Some? && req.cPhone.Some?
    ensures r.status != Done ==> r.state == g
    ensures r.status == Done ==>
      var n := |g.firms|;
      && |r.state.firms| == n + 1
      && r.state.firms[..n] == g.firms
      && r.state.rows == g.rows + [FirmDebt(n, req.debt, "oldi", Some(req.recordedBy))]
      && r.state.firms[n] == Firm(req.name, req.supervisor, req.sPhone.value, req.agent, req.aPhone.value,
                                  req.currier, req.cPhone.value, req.humo, req.uzcard, req.day,
                                  r.state.firms[n].debt, false)
    ensures r.status == Done && Owned(g) ==> r.state.firms[|g.firms|].debt == req.debt
    ensures Valid(g) ==> Valid(r.state)
  {
    if !StoreValid(req) then Reply(g, Failed(ValidationFailed))
    else if req.sPhone.None? || req.aPhone.None? || req.cPhone.None? then Reply(g, Failed(ServerError))
    else
      var n := |g.firms|;
      var firm := Firm(req.name, req.supervisor, req.sPhone.value, req.agent, req.aPhone.value,
                       req.currier, req.cPhone.value, req.humo, req.uzcard, req.day, req.debt, false);
      var g1 := g.(firms := g.firms + [firm]);
      var row := FirmDebt(n, req.debt, "oldi", Some(req.recordedBy));
      var g2 := CreateFirmDebt(g1, row);
      Ledger.TotalAppend(g.rows, row, FirmShare(n));
      forall f | f != n
        ensures FirmBalance(g.rows + [row], f) == FirmBalance(g.rows, f)
      {
        Ledger.TotalAppend(g.rows, row, FirmShare(f));
      }
      assert Owned(g) ==> FirmBalance(g.rows, n) == 0 by {
        if Owned(g) {
          NoRowsNoBalance(g.rows, n);
        }
      }
      Reply(g2, Done)
  }

  /** The rows of firm `f`, oldest first. */
  function RowsOf(rows: seq<FirmDebt>, f: nat): (r: seq<FirmDebt>)
    ensures forall d :: d in r ==> d in rows && d.firmId == f
    ensures forall i :: 0 <= i < |rows| && rows[i].firmId == f ==> rows[i] in r
    decreases |rows|
  {
    if |rows| == 0 then []
    else
      var tail := RowsOf(rows[1..], f);
      assert forall i :: 1 <= i < |rows| ==> rows[i] == rows[1..][i - 1];
      if rows[0].firmId == f then [rows[0]] + tail else tail
  }

  /** The balance is the signed sum over `RowsOf`, every row included. */
  lemma {:induction false} BalanceIsRowsSum(rows: seq<FirmDebt>, f: nat)
    ensures FirmBalance(rows, f) == Ledger.Total(RowsOf(rows, f), SignedShare())
    decreases |rows|
  {
    if |rows| > 0 {
      BalanceIsRowsSum(rows[1..], f);
      var tail := RowsOf(rows[1..], f);
      if rows[0].firmId == f {
        assert ([rows[0]] + tail)[1..] == tail;
      }
    }
  }

  /** `show`: a live firm with all of its rows, newest first. */
  function Show(g: Registry, id: nat): (r: Option<(Firm, seq<FirmDebt>)>)
    ensures r.None? <==> !Live(g, id)
    ensures r.Some? ==> r.value.0 == g.firms[id]
    ensures r.Some? ==> forall d :: d in r.value.1 ==> d in g.rows && d.firmId == id
    ensures r.Some? ==> forall i :: 0 <= i < |g.rows| && g.rows[i].firmId == id ==> g.rows[i] in r.value.1
    ensures r.Some? ==> Ledger.Reverse(r.value.1) == RowsOf(g.rows, id)
  {
    if !Live(g, id) then None
    else
      var rows := Ledger.Reverse(RowsOf(g.rows, id));
      assert Ledger.Reverse(rows) == RowsOf(g.rows, id) by {
        Ledger.ReverseTwice(RowsOf(g.rows, id));
      }
      assert forall d :: d in rows <==> d in RowsOf(g.rows, id) by {
        Ledger.ReverseSameRows(RowsOf(g.rows, id));
        assert forall d :: d in rows <==> d in multiset(rows);
      }
      Some((g.firms[id], rows))
  }

  /** On a consistent registry, the debt `show` reports is the signed sum of every row it lists. */
  lemma ShowAgreesWithDebt(g: Registry, id: nat)
    requires Consistent(g) && Live(g, id)
    ensures Show(g, id).Some?
    ensures Show(g, id).value.0.debt == Ledger.Total(Show(g, id).value.1, SignedShare())
  {
    var v := RowsOf(g.rows, id);
    BalanceIsRowsSum(g.rows, id);
    Ledger.ReverseSameRows(v);
    Ledger.TotalPermutation(Ledger.Reverse(v), v, SignedShare());
  }

  /** The live firms, in id order. */
  function LiveFirms(fs: seq<Firm>): (r: seq<Firm>)
    ensures forall f :: f in r ==> f in fs && !f.deleted
    ensures forall i :: 0 <= i < |fs| && !fs[i].deleted ==> fs[i] in r
    decreases |fs|
  {
    if |fs| == 0 then []
    else
      var tail := LiveFirms(fs[1..]);
      assert forall i :: 1 <= i < |fs| ==> fs[i] == fs[1..][i - 1];
      if fs[0].deleted then tail else [fs[0]] + tail
  }

  /** `index` without the name search and pagination: exactly the firms that are not soft-deleted. */
  function Index(g: Registry): (r: seq<Firm>)
    ensures forall f :: f in r ==> f in g.firms && !f.deleted
    ensures forall i :: 0 <= i < |g.firms| && !g.firms[i].deleted ==> g.firms[i] in r
  {
    LiveFirms(g.firms)
  }

  predicate PatchValid(p: FirmPatch) {
    && OptionFitsIn(p.name, 255) && OptionFitsIn(p.supervisor, 255) && OptionFitsIn(p.agent, 255)
    && OptionFitsIn(p.currier, 255) && OptionFitsIn(p.day, 255)
    && OptionalFits(p.sPhone, 20) && OptionalFits(p.aPhone, 20) && OptionalFits(p.cPhone, 20)
  }

  function Patched(f: Firm, p: FirmPatch): Firm {
    f.(name := p.name.GetOr(f.name),
       supervisor := p.supervisor.GetOr(f.supervisor),
       sPhone := p.sPhone.GetOr(f.sPhone),
       agent := p.agent.GetOr(f.agent),
       aPhone := p.aPhone.GetOr(f.aPhone),
       currier := p.currier.GetOr(f.currier),
       cPhone := p.cPhone.GetOr(f.cPhone),
       humo := p.humo.GetOr(f.humo),
       uzcard := p.uzcard.GetOr(f.uzcard),
       day := p.day.GetOr(f.day))
  }

  /** `update` on a live firm: `debt` and the flag cannot change, the ledger is untouched. */
  function Update(g: Registry, id: nat, p: FirmPatch): (r: Reply<Registry>)
    ensures !Live(g, id) ==> r == Reply(g, Failed(NotFound))
    ensures Live(g, id) && !PatchValid(p) ==> r == Reply(g, Failed(ValidationFailed))
    ensures r.status == Done <==> Live(g, id) && PatchValid(p)
    ensures r.status == Done ==>
      && r.state.rows == g.rows
      && |r.state.firms| == |g.firms|
      && r.state.firms[id].debt == g.firms[id].debt
      && !r.state.firms[id].deleted
      && r.state.firms == g.firms[id := Patched(g.firms[id], p)]
    ensures Valid(g) ==> Valid(r.state)
  {
    if !Live(g, id) then Reply(g, Failed(NotFound))
    else if !PatchValid(p) then Reply(g, Failed(ValidationFailed))
    else Reply(g.(firms := g.firms[id := Patched(g.firms[id], p)]), Done)
  }

  /** `destroy` on a live firm: set the flag, leave the rows and the debt. */
  function Destroy(g: Registry, id: nat): (r: Reply<Registry>)
    ensures !Live(g, id) ==> r == Reply(g, Failed(NotFound))
    ensures Live(g, id) ==> r.status == Done && r.state.rows == g.rows
    ensures Live(g, id) ==> r.state.firms == g.firms[id := g.firms[id].(deleted := true)]
    ensures Valid(g) ==> Valid(r.state)
  {
    if !Live(g, id) then Reply(g, Failed(NotFound))
    else Reply(g.(firms := g.firms[id := g.firms[id].(deleted := true)]), Done)
  }

  /** Deleting is not idempotent: the second delete of the same firm answers 404. */
  lemma DestroyTwiceNotFound(g: Registry, id: nat)
    requires Live(g, id)
    ensures Destroy(Destroy(g, id).state, id).status == Failed(NotFound)
  {
  }

  /** The keys `FirmDebt` accepts through mass assignment. */
  const FirmDebtFillable: set<string> := {"firm_id", "amount", "status", "recorded_by"}

  /** Mass assignment: the given attributes that survive into the insert. */
  function MassAssigned(attrs: map<string, int>): (r: map<string, int>)
    ensures forall k :: k in r <==> k in attrs && k in FirmDebtFillable
    ensures forall k :: k in r ==> r[k] == attrs[k]
  {
    map k | k in attrs && k in FirmDebtFillable :: attrs[k]
  }

  /** The `amount` column as `FirmDebt::create` fills it from a value passed under `key`. */
  function FilledAmount(key: string, value: int): (r: Option<int>)
    ensures r.Some? <==> key == "amount"
    ensures r.Some? ==> r.value == value
  {
    var kept := MassAssigned(map[key := value]);
    if "amount" in kept then Some(kept["amount"]) else None
  }

  predicate ChangeValid(debt: int, status: string, recordedBy: Option<Option<string>>) {
    && debt >= 0
    && (status == "oldi" || status == "berdi")
    && OptionalFits(recordedBy, 255)
  }

  /** `changeDebt` with the requested amount passed under `key`. The insert of
      a row whose `amount` was not filled violates the NOT NULL column and
      raises, so nothing is appended. */
  function ChangeDebtUnder(g: Registry, id: nat, key: string, debt: int, status: string,
                           recordedBy: Option<Option<string>>): (r: Reply<Registry>)
    ensures !Live(g, id) ==> r == Reply(g, Failed(NotFound))
    ensures Live(g, id) && !ChangeValid(debt, status, recordedBy) ==> r == Reply(g, Failed(ValidationFailed))
    ensures r.status == Done <==>
      Live(g, id) && ChangeValid(debt, status, recordedBy) && recordedBy.Some? && FilledAmount(key, debt).Some?
    ensures r.status != Done ==> r.state == g
    ensures r.status == Done ==>
      && r.state.rows == g.rows + [FirmDebt(id, debt, status, recordedBy.value)]
      && |r.state.firms| == |g.firms|
      && (forall f :: 0 <= f < |g.firms| && f != id ==> r.state.firms[f] == g.firms[f])
    ensures r.status == Done && Consistent(g) ==>
      r.state.firms[id].debt == g.firms[id].debt + (if status == "oldi" then debt else -debt)
    ensures Valid(g) ==> Valid(r.state)
  {
    if !Live(g, id) then Reply(g, Failed(NotFound))
    else if !ChangeValid(debt, status, recordedBy) then Reply(g, Failed(ValidationFailed))
    else if recordedBy.None? then Reply(g, Failed(ServerError))
    else match FilledAmount(key, debt)
      case None => Reply(g, Failed(ServerError))
      case Some(amount) => Reply(CreateFirmDebt(g, FirmDebt(id, amount, status, recordedBy.value)), Done)
  }

  /** `changeDebt` as written: the amount is passed under the key `debt`. */
  function ChangeDebtAsWritten(g: Registry, id: nat, debt: int, status: string,
                               recordedBy: Option<Option<string>>): (r: Reply<Registry>)
    ensures r.state == g
    ensures r.status != Done
  {
    ChangeDebtUnder(g, id, "debt", debt, status, recordedBy)
  }

  /** `changeDebt` as intended: the amount fills the `amount` column. */
  function ChangeDebt(g: Registry, id: nat, debt: int, status: string,
                      recordedBy: Option<Option<string>>): (r: Reply<Registry>)
    ensures r.status == Done <==> Live(g, id) && ChangeValid(debt, status, recordedBy) && recordedBy.Some?
    ensures r.status == Done ==>
      && r.state.rows == g.rows + [FirmDebt(id, debt, status, recordedBy.value)]
      && |r.state.firms| == |g.firms|
    ensures r.status == Done && Consistent(g) ==>
      r.state.firms[id].debt == g.firms[id].debt + (if status == "oldi" then debt else -debt)
    ensures Valid(g) ==> Valid(r.state)
  {
    ChangeDebtUnder(g, id, "amount", debt, status, recordedBy)
  }

  /** A request the intended handler accepts is answered with an error as
      written, and the firm's debt does not move. */
  lemma AsWrittenLosesAcceptedChange(g: Registry, id: nat, debt: int, status: string, recordedBy: Option<Option<string>>)
    requires ChangeDebt(g, id, debt, status, recordedBy).status == Done
    requires debt != 0 && Consistent(g)
    ensures ChangeDebtAsWritten(g, id, debt, status, recordedBy) == Reply(g, Failed(ServerError))
    ensures ChangeDebt(g, id, debt, status, recordedBy).state.firms[id].debt != g.firms[id].debt
  {
  }
}

=== FILE: ledger.dfy ===
/** The signed fold behind every derived balance in the system.

    The debt recomputations sum `CASE WHEN status = 'oldi' THEN amount ELSE
    -amount END` over a party's rows, and a sale's total sums its items'
    subtotals. Both are `Total(rows, share)`: the sum of `share(row)` over a
    sequence, where `share` is zero for the rows that do not take part.
 */
module Ledger {

  /** The contribution of one ledger row: 'oldi' adds, every other status subtracts. */
  function Signed(amount: int, status: string): int {
    if status == "oldi" then amount else -amount
  }

  function Total<T>(rows: seq<T>, share: T -> int): int
    decreases |rows|
  {
    if |rows| == 0 then 0 else share(rows[0]) + Total(rows[1..], share)
  }

  lemma {:induction false} TotalConcat<T>(a: seq<T>, b: seq<T>, share: T -> int)
    ensures Total(a + b, share) == Total(a, share) + Total(b, share)
    decreases |a|
  {
    if |a| == 0 {
      assert a + b == b;
    } else {
      assert (a + b)[1..] == a[1..] + b;
      TotalConcat(a[1..], b, share);
    }
  }

  /** Appending one row shifts the total by exactly that row's share. */
  lemma {:induction false} TotalAppend<T>(rows: seq<T>, r: T, share: T -> int)
    ensures Total(rows + [r], share) == Total(rows, share) + share(r)
  {
    TotalConcat(rows, [r], share);
    assert Total([r], share) == share(r) + Total([r][1..], share);
  }

  /** Removing the row at `k` takes exactly its share out of the total. */
  lemma {:induction false} TotalRemove<T>(rows: seq<T>, k: nat, share: T -> int)
    requires k < |rows|
    ensures Total(rows[..k] + rows[k + 1..], share) == Total(rows, share) - share(rows[k])
  {
    var pre, mid, post := rows[..k], [rows[k]], rows[k + 1..];
    assert rows == pre + (mid + post);
    TotalConcat(pre, mid + post, share);
    TotalConcat(mid, post, share);
    TotalConcat(pre, post, share);
    assert mid[1..] == [];
    assert Total(mid, share) == share(rows[k]);
  }

  /** Replacing the row at `k` swaps its share for the new row's. */
  lemma {:induction false} TotalReplace<T>(rows: seq<T>, k: nat, r: T, share: T -> int)
    requires k < |rows|
    ensures Total(rows[k := r], share) == Total(rows, share) - share(rows[k]) + share(r)
  {
    var rows' := rows[k := r];
    TotalRemove(rows, k, share);
    TotalRemove(rows', k, share);
    assert rows'[..k] == rows[..k];
    assert rows'[k + 1..] == rows[k + 1..];
  }

  /** Taking out the row at `j` takes exactly one copy of it out of the multiset. */
  lemma RemoveAtRows<T>(b: seq<T>, j: nat)
    requires j < |b|
    ensures multiset(b[..j] + b[j + 1..]) == multiset(b) - multiset{b[j]}
  {
    assert b == b[..j] + [b[j]] + b[j + 1..];
  }

  /** Dropping the first row takes one copy of it out of the multiset. */
  lemma TailRows<T>(a: seq<T>)
    requires |a| > 0
    ensures multiset(a[1..]) == multiset(a) - multiset{a[0]}
  {
    assert a == [a[0]] + a[1..];
  }

  /** A row of the multiset of `b` sits at some index of `b`. */
  lemma {:induction false} FindRow<T>(b: seq<T>, x: T) returns (j: nat)
    requires x in multiset(b)
    ensures j < |b| && b[j] == x
  {
    assert x in b;
    j :| 0 <= j < |b| && b[j] == x;
  }

  /** The total depends only on which rows there are, not on their order. */
  lemma {:induction false} TotalPermutation<T>(a: seq<T>, b: seq<T>, share: T -> int)
    requires multiset(a) == multiset(b)
    ensures Total(a, share) == Total(b, share)
    decreases |a|
  {
    if |a| == 0 {
      assert |multiset(b)| == 0;
    } else {
      var j := FindRow(b, a[0]);
      var rest := b[..j] + b[j + 1..];
      RemoveAtRows(b, j);
      TailRows(a);
      TotalPermutation(a[1..], rest, share);
      TotalRemove(b, j, share);
    }
  }

  /** Rows that all contribute nothing total nothing. */
  lemma {:induction false} TotalOfZeros<T>(rows: seq<T>, share: T -> int)
    requires forall i :: 0 <= i < |rows| ==> share(rows[i]) == 0
    ensures Total(rows, share) == 0
    decreases |rows|
  {
    if |rows| > 0 {
      assert forall i :: 0 <= i < |rows[1..]| ==> rows[1..][i] == rows[i + 1];
      TotalOfZeros(rows[1..], share);
    }
  }

  /** Two share functions that agree on every row give the same total. */
  lemma {:induction false} TotalAgree<T>(rows: seq<T>, f: T -> int, g: T -> int)
    requires forall i :: 0 <= i < |rows| ==> f(rows[i]) == g(rows[i])
    ensures Total(rows, f) == Total(rows, g)
    decreases |rows|
  {
    if |rows| > 0 {
      assert f(rows[0]) == g(rows[0]);
      TotalAgree(rows[1..], f, g);
    }
  }

  /** The rows in the opposite order (newest first, for rows kept oldest first). */
  function Reverse<T>(s: seq<T>): (r: seq<T>)
    ensures |r| == |s|
    ensures forall i :: 0 <= i < |s| ==> r[i] == s[|s| - 1 - i]
    decreases |s|
  {
    if |s| == 0 then [] else Reverse(s[1..]) + [s[0]]
  }

  lemma ReverseTwice<T>(s: seq<T>)
    ensures Reverse(Reverse(s)) == s
  {
  }

  /** Reversal keeps exactly the same rows, so by `TotalPermutation` the same total. */
  lemma {:induction false} ReverseSameRows<T>(s: seq<T>)
    ensures multiset(Reverse(s)) == multiset(s)
    decreases |s|
  {
    if |s| > 0 {
      ReverseSameRows(s[1..]);
      assert s == [s[0]] + s[1..];
    }
  }
}

=== FILE: outcome.dfy ===
/** Shared result and reply shapes for the controller actions.

    Every controller action answers with an HTTP status; the model keeps the
    three failure kinds the actions can produce and, for actions that write,
    the record store as it stands after the request.
 */
module Outcome {

  datatype Option<+T> = None | Some(value: T) {
    function GetOr(default: T): T {
      match this
      case Some(v) => v
      case None => default
    }
  }

  /** 404, 422 and an uncaught exception (500). */
  datatype Error = NotFound | ValidationFailed | ServerError

  datatype Status = Done | Failed(error: Error)

  /** The store after the request together with the answer given. */
  datatype Reply<S> = Reply(state: S, status: Status)

  /** The characters PHP's `trim` strips: space, tab, newline, carriage return, NUL and vertical tab. */
  predicate Blank(c: char) {
    c == ' ' || c == '\t' || c == '\n' || c == '\r' || c as int == 0 || c as int == 11
  }

  /** Laravel's `required` on a string: something other than blanks is left after trimming. */
  predicate Filled(s: string) {
    exists i :: 0 <= i < |s| && !Blank(s[i])
  }

  /** A `required|string|max:n` field. */
  predicate RequiredFits(s: string, n: nat) {
    Filled(s) && FitsIn(s, n)
  }

  /** Laravel's `max:n` rule on a string field. */
  predicate FitsIn(s: string, n: nat) {
    |s| <= n
  }

  /** `max:n` on a nullable string field: null always passes. */
  predicate OptionFitsIn(s: Option<string>, n: nat) {
    s.None? || |s.value| <= n
  }
}

=== FILE: payroll.dfy ===
/** Worker pay accrual (`WorkerController`).

    A working worker's `summa` is a projection of the calendar: whole days
    since the start day, plus today once the local clock has reached 11:00,
    times the daily rate. The projection overwrites `summa` whenever a working
    worker is listed, shown or updated; pay events then move `summa` by their
    amount, which the next projection discards again.

    The wall clock is a parameter: `today` is a day number in the fixed civil
    calendar and `hour` the local hour.
 */
module Payroll {
  import opened Outcome

  type Hour = h: int | 0 <= h < 24

  datatype Clock = Clock(today: int, hour: Hour)

  /** The status of a worker who is working, the only one that accrues. */
  const Working: string := "ishlayabdi"
  const NotWorking: string := "ishlamayabdi"

  /** From this local hour on, the current day counts as worked. */
  const Cutoff: int := 11

  /** Whole calendar days between two dates, as an absolute count. */
  function DaysBetween(start: int, today: int): nat {
    if start <= today then today - start else start - today
  }

  datatype Worker = Worker(
    name: string,
    phone: string,
    amount: int,
    day: int,
    status: string,
    image: Option<string>,
    summa: int)

  /** One row of the worker pays table. */
  datatype Pay = Pay(workerId: nat, amount: int, status: string)

  datatype Staff = Staff(workers: map<nat, Worker>, pays: seq<Pay>, nextId: nat)

  /** Ids are handed out from a counter above every id in use. */
  ghost predicate Fresh(st: Staff) {
    forall id :: id in st.workers ==> id < st.nextId
  }

  /** `calculateSumma`. */
  function CalculateSumma(w: Worker, clock: Clock): int {
    (DaysBetween(w.day, clock.today) + (if clock.hour >= Cutoff then 1 else 0)) * w.amount
  }

  /** On day `start + k`, the accrual is `k` days of pay before 11:00 and `k + 1` days from 11:00 on. */
  lemma AccrualOnDay(w: Worker, k: nat, hour: Hour)
    ensures hour < Cutoff ==> CalculateSumma(w, Clock(w.day + k, hour)) == k * w.amount
    ensures hour >= Cutoff ==> CalculateSumma(w, Clock(w.day + k, hour)) == (k + 1) * w.amount
  {
  }

  /** On the same date, any hour from 11:00 on pays exactly one daily rate more than any hour before. */
  lemma CutoffAddsOneDay(w: Worker, today: int, before: Hour, after: Hour)
    requires before < Cutoff <= after
    ensures CalculateSumma(w, Clock(today, after)) == CalculateSumma(w, Clock(today, before)) + w.amount
  {
  }

  /** The step `index`, `show` and `update` apply to each worker they return. */
  function Refresh(w: Worker, clock: Clock): Worker {
    if w.status == Working then w.(summa := CalculateSumma(w, clock)) else w
  }

  /** `index` without the name search: every working worker's `summa` is
      rewritten with the accrual; everyone else keeps the stored value. */
  function Index(st: Staff, clock: Clock): (r: Staff)
    ensures r.pays == st.pays && r.nextId == st.nextId
    ensures r.workers.Keys == st.workers.Keys
    ensures forall id :: id in st.workers && st.workers[id].status == Working ==>
      r.workers[id] == st.workers[id].(summa := CalculateSumma(st.workers[id], clock))
    ensures forall id :: id in st.workers && st.workers[id].status != Working ==>
      r.workers[id] == st.workers[id]
  {
    st.(workers := map id | id in st.workers :: Refresh(st.workers[id], clock))
  }

  /** The body of `POST /workers`; `image` is the stored upload path, if a file was sent. */
  datatype NewWorker = NewWorker(name: string, phone: string, amount: int, day: int, image: Option<string>)

  /** A daily rate, `integer|min:0|divisible_by:100`, reading `divisible_by:100` as "a multiple of 100". */
  predicate RateValid(amount: int) {
    amount >= 0 && amount % 100 == 0
  }

  /** `name` and `phone` are `required|string|max:255`. */
  predicate StoreValid(req: NewWorker) {
    RequiredFits(req.name, 255) && RequiredFits(req.phone, 255) && RateValid(req.amount)
  }

  /** `store`: a new worker starts working with `summa = 0`. */
  function Store(st: Staff, req: NewWorker): (r: Reply<Staff>)
    ensures !StoreValid(req) ==> r == Reply(st, Failed(ValidationFailed))
    ensures StoreValid(req) ==>
      && r.status == Done
      && r.state.workers == st.workers[st.nextId := Worker(req.name, req.phone, req.amount, req.day, Working, req.image, 0)]
      && r.state.nextId == st.nextId + 1
      && r.state.pays == st.pays
    ensures Fresh(st) ==> Fresh(r.state)
    ensures Fresh(st) && r.status == Done ==> r.state.workers.Keys == st.workers.Keys + {st.nextId}
  {
    if !StoreValid(req) then Reply(st, Failed(ValidationFailed))
    else
      var w := Worker(req.name, req.phone, req.amount, req.day, Working, req.image, 0);
      Reply(st.(workers := st.workers[st.nextId := w], nextId := st.nextId + 1), Done)
  }

  /** `show`: a working worker's `summa` is rewritten with the accrual and saved. */
  function Show(st: Staff, id: nat, clock: Clock): (r: Reply<Staff>)
    ensures id !in st.workers ==> r == Reply(st, Failed(NotFound))
    ensures id in st.workers ==> r.status == Done && r.state.pays == st.pays && r.state.nextId == st.nextId
    ensures id in st.workers && st.workers[id].status == Working ==>
      r.state.workers == st.workers[id := st.workers[id].(summa := CalculateSumma(st.workers[id], clock))]
    ensures id in st.workers && st.workers[id].status != Working ==> r.state == st
  {
    if id !in st.workers then Reply(st, Failed(NotFound))
    else Reply(st.(workers := st.workers[id := Refresh(st.workers[id], clock)]), Done)
  }

  /** The body of `PUT /workers/{id}`. `image` is `Some(Some(path))` for an
      uploaded file, `Some(None)` when the key is sent as null, `None` when absent. */
  datatype WorkerPatch = WorkerPatch(
    name: Option<string>,
    phone: Option<string>,
    amount: Option<int>,
    day: Option<int>,
    status: Option<string>,
    image: Option<Option<string>>)

  predicate PatchValid(p: WorkerPatch) {
    && OptionFitsIn(p.name, 255)
    && OptionFitsIn(p.phone, 255)
    && (p.amount.Some? ==> RateValid(p.amount.value))
    && (p.status.Some? ==> p.status.value == Working || p.status.value == NotWorking)
  }

  function Patched(w: Worker, p: WorkerPatch): Worker {
    w.(name := p.name.GetOr(w.name),
       phone := p.phone.GetOr(w.phone),
       amount := p.amount.GetOr(w.amount),
       day := p.day.GetOr(w.day),
       status := p.status.GetOr(w.status),
       image := p.image.GetOr(w.image))
  }

  /** `update`: apply the accepted fields, then, if the worker is working
      afterwards, rewrite `summa` from the new rate and start day. */
  function Update(st: Staff, id: nat, p: WorkerPatch, clock: Clock): (r: Reply<Staff>)
    ensures id !in st.workers ==> r == Reply(st, Failed(NotFound))
    ensures id in st.workers && !PatchValid(p) ==> r == Reply(st, Failed(ValidationFailed))
    ensures r.status == Done <==> id in st.workers && PatchValid(p)
    ensures r.status == Done ==> r.state.workers.Keys == st.workers.Keys
    ensures r.status == Done ==>
      var w := st.workers[id];
      var w' := r.state.workers[id];
      && (forall j :: j in st.workers && j != id ==> r.state.workers[j] == st.workers[j])
      && r.state.pays == st.pays
      && r.state.nextId == st.nextId
      && w'.name == p.name.GetOr(w.name)
      && w'.phone == p.phone.GetOr(w.phone)
      && w'.image == p.image.GetOr(w.image)
      && w'.amount == p.amount.GetOr(w.amount)
      && w'.day == p.day.GetOr(w.day)
      && w'.status == p.status.GetOr(w.status)
      && (w'.status == Working ==> w'.summa == (DaysBetween(w'.day, clock.today) + (if clock.hour >= Cutoff then 1 else 0)) * w'.amount)
      && (w'.status != Working ==> w'.summa == w.summa)
  {
    if id !in st.workers then Reply(st, Failed(NotFound))
    else if !PatchValid(p) then Reply(st, Failed(ValidationFailed))
    else Reply(st.(workers := st.workers[id := Refresh(Patched(st.workers[id], p), clock)]), Done)
  }

  /** `update` already writes what `show` would: a `show` right after it,
      at the same clock, changes nothing. */
  lemma ShowAfterUpdateChangesNothing(st: Staff, id: nat, p: WorkerPatch, clock: Clock)
    requires Update(st, id, p, clock).status == Done
    ensures Show(Update(st, id, p, clock).state, id, clock) == Update(st, id, p, clock)
  {
  }

  /** `destroy`: the worker row is removed outright. */
  function Destroy(st: Staff, id: nat): (r: Reply<Staff>)
    ensures id !in st.workers ==> r == Reply(st, Failed(NotFound))
    ensures id in st.workers ==> r.status == Done && r.state.workers == st.workers - {id} && r.state.pays == st.pays
    ensures Fresh(st) ==> Fresh(r.state)
  {
    if id !in st.workers then Reply(st, Failed(NotFound))
    else Reply(st.(workers := st.workers - {id}), Done)
  }

  predicate PayValid(amount: int, status: string) {
    amount >= 0 && (status == "oldi" || status == "berdi")
  }

  /** `changePay`: record the pay row; for a working worker first reset
      `summa` to the accrual; then 'oldi' (paid out) subtracts the amount and
      'berdi' adds it. */
  function ChangePay(st: Staff, id: nat, amount: int, status: string, clock: Clock): (r: Reply<Staff>)
    ensures id !in st.workers ==> r == Reply(st, Failed(NotFound))
    ensures id in st.workers && !PayValid(amount, status) ==> r == Reply(st, Failed(ValidationFailed))
    ensures r.status == Done <==> id in st.workers && PayValid(amount, status)
    ensures r.status == Done ==>
      var w := st.workers[id];
      var base := if w.status == Working then CalculateSumma(w, clock) else w.summa;
      && r.state.pays == st.pays + [Pay(id, amount, status)]
      && r.state.workers == st.workers[id := w.(summa := if status == "oldi" then base - amount else base + amount)]
      && r.state.nextId == st.nextId
  {
    if id !in st.workers then Reply(st, Failed(NotFound))
    else if !PayValid(amount, status) then Reply(st, Failed(ValidationFailed))
    else
      var w := Refresh(st.workers[id], clock);
      var summa := if status == "oldi" then w.summa - amount else w.summa + amount;
      Reply(st.(workers := st.workers[id := w.(summa := summa)], pays := st.pays + [Pay(id, amount, status)]), Done)
  }

  /** A stopped worker's `summa` moves by exactly the pay amount. */
  lemma PayMovesStoppedWorker(st: Staff, id: nat, amount: int, status: string, clock: Clock)
    requires id in st.workers && st.workers[id].status != Working && PayValid(amount, status)
    ensures ChangePay(st, id, amount, status, clock).state.workers[id].summa
         == st.workers[id].summa + (if status == "oldi" then -amount else amount)
  {
  }

  /** A pay adjustment on a working worker does not survive a later `show`
      at the same time of day: `show` writes the plain accrual back. */
  lemma PayLostOnShow(st: Staff, id: nat, amount: int, status: string, clock: Clock)
    requires id in st.workers && st.workers[id].status == Working && PayValid(amount, status) && amount > 0
    ensures var paid := ChangePay(st, id, amount, status, clock).state;
      && Show(paid, id, clock).state.workers[id].summa == CalculateSumma(st.workers[id], clock)
      && paid.workers[id].summa != CalculateSumma(st.workers[id], clock)
  {
  }
}

=== FILE: sales.dfy ===
/** Wholesale sales (`SaleController`).

    A wholesale buyer (an "optomchi") has sales, and a sale has line items.
    Each item stores `subtotal = quantity * price`, and each sale stores
    `total_sum`, which the handlers keep equal to the sum of its items'
    subtotals on every path except a direct overwrite of the total.
 */
module Sales {
  import opened Outcome
  import Ledger

  /** The four sale-price fields of a product. */
  datatype PriceField = OptomDona | OptomBlok | ToychiDona | ToychiBlok

  /** A product, reduced to the price each field yields. */
  datatype Product = Product(optomDona: int, optomBlok: int, toychiDona: int, toychiBlok: int)

  function FieldPrice(p: Product, f: PriceField): int {
    match f
    case OptomDona => p.optomDona
    case OptomBlok => p.optomBlok
    case ToychiDona => p.toychiDona
    case ToychiBlok => p.toychiBlok
  }

  /** The price-field table keyed by sale type and unit: any unit other than
      'dona' selects the block price, any sale type other than 'optom' the
      wedding-buyer price. */
  function PriceKey(saleType: string, unit: string): (f: PriceField)
    ensures f == OptomDona <==> saleType == "optom" && unit == "dona"
    ensures f == OptomBlok <==> saleType == "optom" && unit != "dona"
    ensures f == ToychiDona <==> saleType != "optom" && unit == "dona"
    ensures f == ToychiBlok <==> saleType != "optom" && unit != "dona"
  {
    if saleType == "optom" then
      (if unit == "dona" then OptomDona else OptomBlok)
    else
      (if unit == "dona" then ToychiDona else ToychiBlok)
  }

  /** The sale type the create and update handlers compare against 'optom'. */
  const HandlerSaleType: string := "optom"

  /** The handlers' comparison is between two equal constants, so the wedding-buyer prices are never chosen there. */
  lemma HandlersUseOptomPrices(unit: string)
    ensures PriceKey(HandlerSaleType, unit) == OptomDona || PriceKey(HandlerSaleType, unit) == OptomBlok
  {
  }

  datatype Optom = Optom(name: string, phone: string, address: string, saleType: string, createdBy: string)

  datatype Sale = Sale(optomId: nat, total: int)

  datatype SaleItem = SaleItem(
    id: nat,
    saleId: nat,
    productId: Option<nat>,
    name: Option<string>,
    quantity: int,
    unit: string,
    price: int,
    subtotal: int)

  /** The products, buyers, sales and sale items tables; each has its own id counter. */
  datatype Shop = Shop(
    products: map<nat, Product>,
    optoms: map<nat, Optom>,
    sales: map<nat, Sale>,
    items: seq<SaleItem>,
    nextOptom: nat,
    nextSale: nat,
    nextItem: nat)

  /** What one item adds to sale `s`'s total. */
  function SaleShare(s: nat): SaleItem -> int {
    (it: SaleItem) => if it.saleId == s then it.subtotal else 0
  }

  function SaleTotal(items: seq<SaleItem>, s: nat): int {
    Ledger.Total(items, SaleShare(s))
  }

  function SubtotalShare(): SaleItem -> int {
    (it: SaleItem) => it.subtotal
  }

  /** Foreign keys hold and the id counters are above every id in use. */
  ghost predicate WellFormed(sh: Shop) {
    && (forall i :: 0 <= i < |sh.items| ==> sh.items[i].saleId in sh.sales)
    && (forall s :: s in sh.sales ==> sh.sales[s].optomId in sh.optoms && s < sh.nextSale)
    && (forall o :: o in sh.optoms ==> o < sh.nextOptom)
  }

  /** Sale `s` stores the sum of its items' subtotals. */
  ghost predicate ConsistentAt(sh: Shop, s: nat) {
    s in sh.sales ==> sh.sales[s].total == SaleTotal(sh.items, s)
  }

  ghost predicate TotalsConsistent(sh: Shop) {
    forall s :: ConsistentAt(sh, s)
  }

  ghost predicate Priced(sh: Shop) {
    forall i :: 0 <= i < |sh.items| ==> sh.items[i].subtotal == sh.items[i].quantity * sh.items[i].price
  }

  ghost predicate Valid(sh: Shop) {
    WellFormed(sh) && TotalsConsistent(sh) && Priced(sh)
  }

  /** Items that all belong to sale `s` total the sum of their subtotals. */
  lemma OwnItemsTotal(rows: seq<SaleItem>, s: nat)
    requires forall i :: 0 <= i < |rows| ==> rows[i].saleId == s
    ensures SaleTotal(rows, s) == Ledger.Total(rows, SubtotalShare())
  {
    Ledger.TotalAgree(rows, SaleShare(s), SubtotalShare());
  }

  /** Items of other sales add nothing to sale `s`. */
  lemma ForeignItemsTotal(rows: seq<SaleItem>, s: nat)
    requires forall i :: 0 <= i < |rows| ==> rows[i].saleId != s
    ensures SaleTotal(rows, s) == 0
  {
    Ledger.TotalOfZeros(rows, SaleShare(s));
  }

  // ---------------------------------------------------------------- create

  /** One entry of `items` in the create request. */
  datatype ItemRequest = ItemRequest(
    productId: Option<nat>,
    name: Option<string>,
    quantity: int,
    unit: string,
    price: int)

  /** The body of `POST /optomchilar`; its `sale_type` is validated and then ignored. */
  datatype NewOptom = NewOptom(
    name: string,
    phone: string,
    address: string,
    saleType: string,
    createdBy: string,
    items: seq<ItemRequest>)

  predicate UnitValid(unit: string) {
    unit == "dona" || unit == "blok"
  }

  predicate ItemValid(products: map<nat, Product>, it: ItemRequest) {
    && it.quantity >= 1
    && UnitValid(it.unit)
    && it.price >= 0
    && (it.productId.Some? ==> it.productId.value in products)
    && (it.productId.None? ==> it.name.Some? && Filled(it.name.value))
    && OptionFitsIn(it.name, 255)
  }

  /** The five buyer fields are `required|string|max:255`, and at least one item is sent. */
  predicate StoreValid(sh: Shop, req: NewOptom) {
    && RequiredFits(req.name, 255) && RequiredFits(req.phone, 255) && RequiredFits(req.address, 255)
    && RequiredFits(req.saleType, 255) && RequiredFits(req.createdBy, 255)
    && |req.items| >= 1
    && forall k :: 0 <= k < |req.items| ==> ItemValid(sh.products, req.items[k])
  }

  /** The unit price an item is stored with: the product's field for the unit
      when the item names an existing product, the requested price otherwise. */
  function ResolvedPrice(products: map<nat, Product>, productId: Option<nat>, unit: string, requested: int): int {
    if productId.Some? && productId.value in products then
      FieldPrice(products[productId.value], PriceKey(HandlerSaleType, unit))
    else
      requested
  }

  /** The item row stored for one request entry. The name is kept only for an item without a product. */
  function PricedItem(products: map<nat, Product>, it: ItemRequest, saleId: nat, id: nat): (r: SaleItem)
    ensures r.subtotal == r.quantity * r.price
    ensures r.quantity == it.quantity && r.unit == it.unit && r.saleId == saleId && r.id == id
    ensures it.productId.None? ==> r.price == it.price && r.name == it.name
    ensures it.productId.Some? ==> r.name.None?
    ensures it.productId.Some? && it.productId.value in products ==>
      r.price == FieldPrice(products[it.productId.value], if it.unit == "dona" then OptomDona else OptomBlok)
  {
    var price := ResolvedPrice(products, it.productId, it.unit, it.price);
    SaleItem(id, saleId, it.productId, if it.productId.Some? then None else it.name,
             it.quantity, it.unit, price, it.quantity * price)
  }

  /** A new buyer with one new sale whose items are `rows` and whose total is `total`. */
  function WithNewSale(sh: Shop, optom: Optom, rows: seq<SaleItem>, total: int): Shop {
    sh.(optoms := sh.optoms[sh.nextOptom := optom],
        sales := sh.sales[sh.nextSale := Sale(sh.nextOptom, total)],
        items := sh.items + rows,
        nextOptom := sh.nextOptom + 1,
        nextSale := sh.nextSale + 1,
        nextItem := sh.nextItem + |rows|)
  }

  /** Where the new buyer, sale and rows land, and that every older sale is kept. */
  lemma WithNewSaleLayout(sh: Shop, optom: Optom, rows: seq<SaleItem>, total: int)
    ensures var r, n := WithNewSale(sh, optom, rows, total), |sh.items|;
      && r.optoms == sh.optoms[sh.nextOptom := optom]
      && sh.nextSale in r.sales
      && r.sales[sh.nextSale] == Sale(sh.nextOptom, total)
      && (forall t :: t in sh.sales && t != sh.nextSale ==> t in r.sales && r.sales[t] == sh.sales[t])
      && |r.items| == n + |rows|
      && r.items[..n] == sh.items
      && r.items[n..] == rows
      && (forall k :: 0 <= k < |rows| ==> r.items[n + k] == rows[k])
  {
    var r, n := WithNewSale(sh, optom, rows, total), |sh.items|;
    assert r.items[n..] == rows;
  }

  /** Adding a sale whose total is the sum of its own new items keeps every total consistent. */
  lemma NewSaleValid(sh: Shop, optom: Optom, rows: seq<SaleItem>, total: int)
    requires Valid(sh)
    requires forall i :: 0 <= i < |rows| ==> rows[i].saleId == sh.nextSale
    requires forall i :: 0 <= i < |rows| ==> rows[i].subtotal == rows[i].quantity * rows[i].price
    requires total == Ledger.Total(rows, SubtotalShare())
    ensures Valid(WithNewSale(sh, optom, rows, total))
  {
    var r := WithNewSale(sh, optom, rows, total);
    forall t | t in r.sales
      ensures ConsistentAt(r, t)
    {
      NewSaleConsistentAt(sh, optom, rows, total, t);
    }
    NewSaleShape(sh, optom, rows, total);
  }

  /** One sale's total after a new sale is added: the new one sums its rows, the old ones are untouched. */
  lemma NewSaleConsistentAt(sh: Shop, optom: Optom, rows: seq<SaleItem>, total: int, t: nat)
    requires WellFormed(sh) && TotalsConsistent(sh)
    requires forall i :: 0 <= i < |rows| ==> rows[i].saleId == sh.nextSale
    requires total == Ledger.Total(rows, SubtotalShare())
    ensures ConsistentAt(WithNewSale(sh, optom, rows, total), t)
  {
    var s := sh.nextSale;
    if t in WithNewSale(sh, optom, rows, total).sales {
      Ledger.TotalConcat(sh.items, rows, SaleShare(t));
      if t == s {
        assert forall i :: 0 <= i < |sh.items| ==> sh.items[i].saleId in sh.sales;
        ForeignItemsTotal(sh.items, s);
        OwnItemsTotal(rows, s);
      } else {
        assert ConsistentAt(sh, t);
        ForeignItemsTotal(rows, t);
      }
    }
  }

  /** Adding a new sale keeps the foreign keys, the counters and the item prices in shape. */
  lemma NewSaleShape(sh: Shop, optom: Optom, rows: seq<SaleItem>, total: int)
    requires WellFormed(sh) && Priced(sh)
    requires forall i :: 0 <= i < |rows| ==> rows[i].saleId == sh.nextSale
    requires forall i :: 0 <= i < |rows| ==> rows[i].subtotal == rows[i].quantity * rows[i].price
    ensures WellFormed(WithNewSale(sh, optom, rows, total)) && Priced(WithNewSale(sh, optom, rows, total))
  {
    var r := WithNewSale(sh, optom, rows, total);
    assert forall i :: 0 <= i < |r.items| ==>
      (i < |sh.items| ==> r.items[i] == sh.items[i]) && (i >= |sh.items| ==> r.items[i] == rows[i - |sh.items|]);
  }

  /** The item loop of `storeOptomchi`: one priced row per entry, in order,
      with the running sum of their subtotals. */
  method PriceItems(products: map<nat, Product>, items: seq<ItemRequest>, saleId: nat, firstId: nat)
    returns (rows: seq<SaleItem>, total: int)
    ensures |rows| == |items|
    ensures forall j :: 0 <= j < |items| ==> rows[j] == PricedItem(products, items[j], saleId, firstId + j)
    ensures total == Ledger.Total(rows, SubtotalShare())
  {
    total := 0;
    rows := [];
    var k := 0;
    while k < |items|
      invariant 0 <= k <= |items|
      invariant |rows| == k
      invariant forall j :: 0 <= j < k ==> rows[j] == PricedItem(products, items[j], saleId, firstId + j)
      invariant total == Ledger.Total(rows, SubtotalShare())
    {
      var row := PricedItem(products, items[k], saleId, firstId + k);
      Ledger.TotalAppend(rows, row, SubtotalShare());
      rows := rows + [row];
      total := total + row.subtotal;
      k := k + 1;
    }
  }

  /** `storeOptomchi`: create the buyer (always with sale type 'optom'), one
      sale, and an item per request entry; the running total of the
      subtotals becomes the sale's total. */
  method StoreOptomchi(sh: Shop, req: NewOptom) returns (r: Reply<Shop>)
    ensures !StoreValid(sh, req) ==> r == Reply(sh, Failed(ValidationFailed))
    ensures StoreValid(sh, req) ==> r.status == Done
    ensures r.status == Done ==>
      var n := |sh.items|;
      && r.state.optoms == sh.optoms[sh.nextOptom := Optom(req.name, req.phone, req.address, "optom", req.createdBy)]
      && sh.nextSale in r.state.sales
      && r.state.sales[sh.nextSale].optomId == sh.nextOptom
      && (forall t :: t in sh.sales && t != sh.nextSale ==> t in r.state.sales && r.state.sales[t] == sh.sales[t])
      && |r.state.items| == n + |req.items|
      && r.state.items[..n] == sh.items
      && (forall k :: 0 <= k < |req.items| ==>
            r.state.items[n + k] == PricedItem(sh.products, req.items[k], sh.nextSale, sh.nextItem + k))
      && r.state.sales[sh.nextSale].total == Ledger.Total(r.state.items[n..], SubtotalShare())
    ensures Valid(sh) ==> Valid(r.state)
  {
    if !StoreValid(sh, req) {
      return Reply(sh, Failed(ValidationFailed));
    }
    var optom := Optom(req.name, req.phone, req.address, "optom", req.createdBy);
    var rows, total := PriceItems(sh.products, req.items, sh.nextSale, sh.nextItem);
    var after := WithNewSale(sh, optom, rows, total);
    if Valid(sh) {
      NewSaleValid(sh, optom, rows, total);
    }
    WithNewSaleLayout(sh, optom, rows, total);
    return Reply(after, Done);
  }

  // ---------------------------------------------------------------- update

  /** One entry of `sales` in the update request. */
  datatype SaleUpdate = SaleUpdate(id: nat, total: int)

  /** One entry of `sale_items` in the update request; absent keys are `None`. */
  datatype ItemUpdate = ItemUpdate(id: nat, quantity: Option<int>, unit: Option<string>, price: Option<int>)

  /** The body of `PUT /optomchilar/{id}`; an absent array is an empty one. */
  datatype OptomPatch = OptomPatch(
    name: Option<string>,
    phone: Option<string>,
    address: Option<string>,
    sales: seq<SaleUpdate>,
    items: seq<ItemUpdate>)

  /** The position of the item with this id, if there is one. */
  function FindItem(items: seq<SaleItem>, id: nat): (r: Option<nat>)
    ensures r.Some? ==> r.value < |items| && items[r.value].id == id
    ensures r.None? ==> forall i :: 0 <= i < |items| ==> items[i].id != id
    decreases |items|
  {
    if |items| == 0 then None
    else if items[0].id == id then Some(0)
    else
      match FindItem(items[1..], id)
      case None => None
      case Some(k) => Some(k + 1)
  }

  predicate ItemUpdateValid(items: seq<SaleItem>, up: ItemUpdate) {
    && FindItem(items, up.id).Some?
    && (up.quantity.Some? ==> up.quantity.value >= 1)
    && (up.unit.Some? ==> UnitValid(up.unit.value))
    && (up.price.Some? ==> up.price.value >= 0)
  }

  /** `sometimes|required|string|max:255`: a buyer field that is sent must be filled. */
  predicate PatchValid(sh: Shop, p: OptomPatch) {
    && (p.name.Some? ==> RequiredFits(p.name.value, 255))
    && (p.phone.Some? ==> RequiredFits(p.phone.value, 255))
    && (p.address.Some? ==> RequiredFits(p.address.value, 255))
    && (forall k :: 0 <= k < |p.sales| ==> p.sales[k].id in sh.sales && p.sales[k].total >= 0)
    && (forall k :: 0 <= k < |p.items| ==> ItemUpdateValid(sh.items, p.items[k]))
  }

  /** PHP truthiness of a string: `array_filter` drops '' and '0'. */
  predicate Truthy(s: string) {
    s != "" && s != "0"
  }

  /** A buyer field after `update(array_filter([... => new ?? old]))`. */
  function Kept(stored: string, given: Option<string>): (r: string)
    ensures given.None? ==> r == stored
    ensures given.Some? && Truthy(given.value) ==> r == given.value
    ensures given.Some? && !Truthy(given.value) ==> r == stored
  {
    var v := given.GetOr(stored);
    if Truthy(v) then v else stored
  }

  /** One direct overwrite of a sale's total, applied only to a sale of buyer `o`. */
  function OverwriteTotal(sh: Shop, o: nat, up: SaleUpdate): (r: Shop)
    ensures r.items == sh.items && r.sales.Keys == sh.sales.Keys
    ensures up.id in sh.sales && sh.sales[up.id].optomId == o ==>
      r == sh.(sales := sh.sales[up.id := sh.sales[up.id].(total := up.total)])
    ensures !(up.id in sh.sales && sh.sales[up.id].optomId == o) ==> r == sh
  {
    if up.id in sh.sales && sh.sales[up.id].optomId == o then
      sh.(sales := sh.sales[up.id := sh.sales[up.id].(total := up.total)])
    else
      sh
  }

  /** The total sent for sale `t` by the last entry of `ups` that names it,
      or `stored` when no entry does. */
  function LastTotal(ups: seq<SaleUpdate>, t: nat, stored: int): (r: int)
    ensures (forall k :: 0 <= k < |ups| ==> ups[k].id != t) ==> r == stored
    ensures forall k :: 0 <= k < |ups| && ups[k].id == t && (forall j :: k < j < |ups| ==> ups[j].id != t) ==> r == ups[k].total
    decreases |ups|
  {
    if |ups| == 0 then stored
    else
      assert forall j :: 1 <= j < |ups| ==> ups[1..][j - 1] == ups[j];
      LastTotal(ups[1..], t, if ups[0].id == t then ups[0].total else stored)
  }

  /** The `sales` loop: each sale of buyer `o` ends with the total of the last
      entry that names it; no other sale changes. */
  function ApplySaleTotals(sh: Shop, o: nat, ups: seq<SaleUpdate>): (r: Shop)
    ensures r.items == sh.items && r.sales.Keys == sh.sales.Keys
    ensures forall t :: t in sh.sales && sh.sales[t].optomId == o ==>
      r.sales[t] == sh.sales[t].(total := LastTotal(ups, t, sh.sales[t].total))
    ensures forall t :: t in sh.sales ==> r.sales[t].optomId == sh.sales[t].optomId
    ensures forall t :: t in sh.sales && sh.sales[t].optomId != o ==> r.sales[t] == sh.sales[t]
    ensures WellFormed(sh) ==> WellFormed(r)
    ensures Priced(sh) ==> Priced(r)
    ensures r.optoms == sh.optoms && r.products == sh.products
    decreases |ups|
  {
    if |ups| == 0 then sh else ApplySaleTotals(OverwriteTotal(sh, o, ups[0]), o, ups[1..])
  }

  /** The direct total path ignores the items: on a consistent shop it keeps
      the total consistent exactly when the new value happens to equal the
      sum of the sale's subtotals. */
  lemma OverwriteConsistentIff(sh: Shop, o: nat, up: SaleUpdate)
    requires TotalsConsistent(sh) && up.id in sh.sales && sh.sales[up.id].optomId == o
    ensures TotalsConsistent(OverwriteTotal(sh, o, up)) <==> up.total == SaleTotal(sh.items, up.id)
  {
    var r := OverwriteTotal(sh, o, up);
    if up.total != SaleTotal(sh.items, up.id) {
      assert !ConsistentAt(r, up.id);
    } else {
      forall t
        ensures ConsistentAt(r, t)
      {
        assert ConsistentAt(sh, t);
      }
    }
  }

  /** Item `it` belongs to a sale of buyer `o`. */
  predicate OfBuyer(sh: Shop, it: SaleItem, o: nat) {
    it.saleId in sh.sales && sh.sales[it.saleId].optomId == o
  }

  /** Item `it` names a product that exists, so its price comes from the product. */
  predicate FromProduct(sh: Shop, it: SaleItem) {
    it.productId.Some? && it.productId.value in sh.products
  }

  /** The entry `up` names an item of sale `t`. */
  predicate TouchedSale(items: seq<SaleItem>, up: ItemUpdate, t: nat) {
    FindItem(items, up.id).Some? && items[FindItem(items, up.id).value].saleId == t
  }

  /** One `sale_items` entry for buyer `o`. Entries for an item of another
      buyer are skipped. A sale item whose sale is gone raises on the owner
      lookup, and when the item names a product the `unit` key is read
      unconditionally, so an entry without it raises: the result then says
      false. Otherwise the item takes the sent quantity and unit, the price of
      the product's wholesale field for the unit (or the sent price, or its
      old one, when there is no product), and its sale's total is recomputed
      from the items. */
  function ApplyItemUpdate(sh: Shop, o: nat, up: ItemUpdate): (r: (Shop, bool))
    ensures r.0.sales.Keys == sh.sales.Keys && |r.0.items| == |sh.items|
    ensures r.0.optoms == sh.optoms && r.0.products == sh.products
    ensures !r.1 ==> r.0 == sh
    ensures FindItem(sh.items, up.id).None? ==> r == (sh, true)
    ensures FindItem(sh.items, up.id).Some? ==>
      var it := sh.items[FindItem(sh.items, up.id).value];
      && (!r.1 <==> it.saleId !in sh.sales || (OfBuyer(sh, it, o) && FromProduct(sh, it) && up.unit.None?))
      && (it.saleId in sh.sales && !OfBuyer(sh, it, o) ==> r == (sh, true))
    ensures forall i :: 0 <= i < |sh.items| ==> r.0.items[i].saleId == sh.items[i].saleId
    ensures forall i :: 0 <= i < |sh.items| ==>
      r.0.items[i].id == sh.items[i].id && r.0.items[i].productId == sh.items[i].productId
    ensures forall i :: 0 <= i < |sh.items| && !OfBuyer(sh, sh.items[i], o) ==> r.0.items[i] == sh.items[i]
    ensures forall i :: 0 <= i < |sh.items| && sh.items[i].id != up.id ==> r.0.items[i] == sh.items[i]
    ensures forall t :: t in sh.sales ==> r.0.sales[t].optomId == sh.sales[t].optomId
    ensures forall t :: t in sh.sales && sh.sales[t].optomId != o ==> r.0.sales[t] == sh.sales[t]
    ensures forall t :: t in sh.sales && !TouchedSale(sh.items, up, t) ==> r.0.sales[t] == sh.sales[t]
    ensures WellFormed(sh) ==> WellFormed(r.0)
    ensures Priced(sh) ==> Priced(r.0)
    ensures forall s :: ConsistentAt(sh, s) ==> ConsistentAt(r.0, s)
    ensures r.1 && FindItem(sh.items, up.id).Some? ==>
      var k := FindItem(sh.items, up.id).value;
      var it := sh.items[k];
      var unit := up.unit.GetOr(it.unit);
      var price :=
        if FromProduct(sh, it) then
          FieldPrice(sh.products[it.productId.value], if unit == "dona" then OptomDona else OptomBlok)
        else up.price.GetOr(it.price);
      var quantity := up.quantity.GetOr(it.quantity);
      OfBuyer(sh, it, o) ==>
      && r.0.items == sh.items[k := it.(quantity := quantity, unit := unit, price := price, subtotal := quantity * price)]
      && (forall t :: t in sh.sales && t != it.saleId ==> r.0.sales[t] == sh.sales[t])
      && r.0.sales[it.saleId] == sh.sales[it.saleId].(total := SaleTotal(r.0.items, it.saleId))
  {
    match FindItem(sh.items, up.id)
    case None => (sh, true)
    case Some(k) =>
      var it := sh.items[k];
      if it.saleId !in sh.sales then (sh, false)
      else if sh.sales[it.saleId].optomId != o then (sh, true)
      else if FromProduct(sh, it) && up.unit.None? then (sh, false)
      else (WriteItem(sh, k, up), true)
  }

  /** The write for an entry that goes through: the item at `k` takes the
      entry's values and its sale's total is recomputed from the items. */
  function WriteItem(sh: Shop, k: nat, up: ItemUpdate): (r: Shop)
    requires k < |sh.items| && sh.items[k].saleId in sh.sales
    requires FromProduct(sh, sh.items[k]) ==> up.unit.Some?
    ensures var it := sh.items[k];
      var unit := up.unit.GetOr(it.unit);
      var price :=
        if FromProduct(sh, it) then
          FieldPrice(sh.products[it.productId.value], if unit == "dona" then OptomDona else OptomBlok)
        else up.price.GetOr(it.price);
      var quantity := up.quantity.GetOr(it.quantity);
      && r.items == sh.items[k := it.(quantity := quantity, unit := unit, price := price, subtotal := quantity * price)]
      && r.sales == sh.sales[it.saleId := sh.sales[it.saleId].(total := SaleTotal(r.items, it.saleId))]
      && r == sh.(items := r.items, sales := r.sales)
    ensures WellFormed(sh) ==> WellFormed(r)
    ensures Priced(sh) ==> Priced(r)
    ensures forall s :: ConsistentAt(sh, s) ==> ConsistentAt(r, s)
  {
    var it := sh.items[k];
    var price :=
      if FromProduct(sh, it) then FieldPrice(sh.products[it.productId.value], PriceKey(HandlerSaleType, up.unit.value))
      else up.price.GetOr(it.price);
    var quantity := up.quantity.GetOr(it.quantity);
    var it' := it.(quantity := quantity, unit := up.unit.GetOr(it.unit), price := price, subtotal := quantity * price);
    var items := sh.items[k := it'];
    var s := it.saleId;
    ItemUpdateKeepsOthers(sh.items, k, it', s);
    sh.(items := items, sales := sh.sales[s := sh.sales[s].(total := SaleTotal(items, s))])
  }

  /** Replacing an item by one of the same sale leaves every other sale's total as it was. */
  lemma ItemUpdateKeepsOthers(items: seq<SaleItem>, k: nat, it': SaleItem, s: nat)
    requires k < |items| && items[k].saleId == s && it'.saleId == s
    ensures forall t :: t != s ==> SaleTotal(items[k := it'], t) == SaleTotal(items, t)
  {
    forall t | t != s
      ensures SaleTotal(items[k := it'], t) == SaleTotal(items, t)
    {
      Ledger.TotalReplace(items, k, it', SaleShare(t));
    }
  }

  /** The `sale_items` loop: stops at the first entry that raises. Only the
      items and sales of buyer `o` can change. */
  function ApplyItemUpdates(sh: Shop, o: nat, ups: seq<ItemUpdate>): (r: (Shop, bool))
    ensures r.0.sales.Keys == sh.sales.Keys && |r.0.items| == |sh.items|
    ensures r.0.optoms == sh.optoms && r.0.products == sh.products
    ensures forall i :: 0 <= i < |sh.items| ==> r.0.items[i].saleId == sh.items[i].saleId
    ensures forall i :: 0 <= i < |sh.items| ==>
      r.0.items[i].id == sh.items[i].id && r.0.items[i].productId == sh.items[i].productId
    ensures forall i :: 0 <= i < |sh.items| && !OfBuyer(sh, sh.items[i], o) ==> r.0.items[i] == sh.items[i]
    ensures forall i :: 0 <= i < |sh.items| && (forall k :: 0 <= k < |ups| ==> ups[k].id != sh.items[i].id) ==>
      r.0.items[i] == sh.items[i]
    ensures forall t :: t in sh.sales ==> r.0.sales[t].optomId == sh.sales[t].optomId
    ensures forall t :: t in sh.sales && sh.sales[t].optomId != o ==> r.0.sales[t] == sh.sales[t]
    ensures WellFormed(sh) ==> WellFormed(r.0)
    ensures Priced(sh) ==> Priced(r.0)
    ensures forall s :: ConsistentAt(sh, s) ==> ConsistentAt(r.0, s)
    decreases |ups|
  {
    if |ups| == 0 then (sh, true)
    else
      var step := ApplyItemUpdate(sh, o, ups[0]);
      if !step.1 then step
      else
        var rest := ApplyItemUpdates(step.0, o, ups[1..]);
        assert forall i :: 0 <= i < |sh.items| && !OfBuyer(sh, sh.items[i], o) ==> !OfBuyer(step.0, step.0.items[i], o);
        assert forall k :: 1 <= k < |ups| ==> ups[1..][k - 1] == ups[k];
        rest
  }

  /** Two item lists with the same ids in the same places find every id at the same place. */
  lemma {:induction false} FindItemSameIds(a: seq<SaleItem>, b: seq<SaleItem>, id: nat)
    requires |a| == |b| && forall i :: 0 <= i < |a| ==> a[i].id == b[i].id
    ensures FindItem(a, id) == FindItem(b, id)
    decreases |a|
  {
    if |a| > 0 && a[0].id != id {
      FindItemSameIds(a[1..], b[1..], id);
    }
  }

  /** What entry `up` leaves in the item `x` it names. The quantity and unit
      are the sent ones when sent; a product item is priced from its
      product's optom field for the sent unit, any other item takes the sent
      price when one is sent; and the subtotal is quantity times price. */
  predicate WritesEntry(products: map<nat, Product>, x: SaleItem, up: ItemUpdate) {
    var fromProduct := x.productId.Some? && x.productId.value in products;
    && (up.quantity.Some? ==> x.quantity == up.quantity.value)
    && (up.unit.Some? ==> x.unit == up.unit.value)
    && (fromProduct ==>
          up.unit.Some? &&
          x.price == FieldPrice(products[x.productId.value], if up.unit.value == "dona" then OptomDona else OptomBlok))
    && (!fromProduct && up.price.Some? ==> x.price == up.price.value)
    && x.subtotal == x.quantity * x.price
  }

  /** One entry keeps every id at its place and every item's buyer. */
  lemma StepKeepsLookup(sh: Shop, o: nat, up: ItemUpdate, x: nat)
    requires FindItem(sh.items, x).Some?
    ensures var st := ApplyItemUpdate(sh, o, up).0;
      var p := FindItem(sh.items, x).value;
      && FindItem(st.items, x) == Some(p)
      && (OfBuyer(st, st.items[p], o) <==> OfBuyer(sh, sh.items[p], o))
  {
    FindItemSameIds(ApplyItemUpdate(sh, o, up).0.items, sh.items, x);
  }

  /** The first entry, when no later one names its item, leaves what it wrote. */
  lemma ItemUpdatesWriteHead(sh: Shop, o: nat, ups: seq<ItemUpdate>)
    requires |ups| > 0 && FindItem(sh.items, ups[0].id).Some?
    requires OfBuyer(sh, sh.items[FindItem(sh.items, ups[0].id).value], o)
    requires forall j :: 0 < j < |ups| ==> ups[j].id != ups[0].id
    requires ApplyItemUpdates(sh, o, ups).1
    ensures WritesEntry(sh.products, ApplyItemUpdates(sh, o, ups).0.items[FindItem(sh.items, ups[0].id).value], ups[0])
  {
    var p := FindItem(sh.items, ups[0].id).value;
    var step := ApplyItemUpdate(sh, o, ups[0]);
    assert step.1;
    assert WritesEntry(sh.products, step.0.items[p], ups[0]);
    assert forall j :: 0 <= j < |ups[1..]| ==> ups[1..][j].id != step.0.items[p].id by {
      assert forall j :: 0 <= j < |ups[1..]| ==> ups[1..][j] == ups[j + 1];
    }
  }

  /** After an item loop that raises nowhere, an item of buyer `o` holds
      what the last entry naming it wrote. */
  lemma {:induction false} ItemUpdatesWriteLast(sh: Shop, o: nat, ups: seq<ItemUpdate>, k: nat)
    requires k < |ups| && FindItem(sh.items, ups[k].id).Some?
    requires OfBuyer(sh, sh.items[FindItem(sh.items, ups[k].id).value], o)
    requires forall j :: k < j < |ups| ==> ups[j].id != ups[k].id
    requires ApplyItemUpdates(sh, o, ups).1
    ensures WritesEntry(sh.products, ApplyItemUpdates(sh, o, ups).0.items[FindItem(sh.items, ups[k].id).value], ups[k])
    decreases |ups|
  {
    if k == 0 {
      ItemUpdatesWriteHead(sh, o, ups);
    } else {
      var step := ApplyItemUpdate(sh, o, ups[0]);
      assert step.1;
      StepKeepsLookup(sh, o, ups[0], ups[k].id);
      assert ups[1..][k - 1] == ups[k];
      assert forall j :: k - 1 < j < |ups[1..]| ==> ups[1..][j] == ups[j + 1];
      ItemUpdatesWriteLast(step.0, o, ups[1..], k - 1);
    }
  }

  /** After an item loop that raises nowhere, every sale with an item that
      some entry names, for buyer `o`, stores the sum of its subtotals,
      whatever its total was before. */
  lemma {:induction false} ItemUpdatesRecomputeTouched(sh: Shop, o: nat, ups: seq<ItemUpdate>, k: nat)
    requires k < |ups| && FindItem(sh.items, ups[k].id).Some?
    requires OfBuyer(sh, sh.items[FindItem(sh.items, ups[k].id).value], o)
    requires ApplyItemUpdates(sh, o, ups).1
    ensures ConsistentAt(ApplyItemUpdates(sh, o, ups).0, sh.items[FindItem(sh.items, ups[k].id).value].saleId)
    decreases |ups|
  {
    var step := ApplyItemUpdate(sh, o, ups[0]);
    assert step.1;
    if k == 0 {
      assert ConsistentAt(step.0, sh.items[FindItem(sh.items, ups[0].id).value].saleId);
    } else {
      StepKeepsLookup(sh, o, ups[0], ups[k].id);
      assert ups[1..][k - 1] == ups[k];
      ItemUpdatesRecomputeTouched(step.0, o, ups[1..], k - 1);
    }
  }

  /** The item loop leaves a sale that no entry touches as it was. */
  lemma {:induction false} ItemUpdatesKeepUntouched(sh: Shop, o: nat, ups: seq<ItemUpdate>, t: nat)
    requires t in sh.sales && forall k :: 0 <= k < |ups| ==> !TouchedSale(sh.items, ups[k], t)
    ensures ApplyItemUpdates(sh, o, ups).0.sales[t] == sh.sales[t]
    decreases |ups|
  {
    if |ups| > 0 {
      var step := ApplyItemUpdate(sh, o, ups[0]);
      assert !TouchedSale(sh.items, ups[0], t);
      if step.1 {
        forall j | 0 <= j < |ups[1..]|
          ensures !TouchedSale(step.0.items, ups[1..][j], t)
        {
          assert ups[1..][j] == ups[j + 1];
          assert !TouchedSale(sh.items, ups[j + 1], t);
          FindItemSameIds(step.0.items, sh.items, ups[j + 1].id);
        }
        ItemUpdatesKeepUntouched(step.0, o, ups[1..], t);
      }
    }
  }

  /** The item loop over `a + b` is the loop over `a` followed, unless `a`
      raised, by the loop over `b`: the writes made before an entry that
      raises stay. */
  lemma {:induction false} ItemUpdatesSplit(sh: Shop, o: nat, a: seq<ItemUpdate>, b: seq<ItemUpdate>)
    ensures var first := ApplyItemUpdates(sh, o, a);
      ApplyItemUpdates(sh, o, a + b) == if !first.1 then first else ApplyItemUpdates(first.0, o, b)
    decreases |a|
  {
    if |a| == 0 {
      assert a + b == b;
    } else {
      assert (a + b)[0] == a[0] && (a + b)[1..] == a[1..] + b;
      var step := ApplyItemUpdate(sh, o, a[0]);
      if step.1 {
        ItemUpdatesSplit(step.0, o, a[1..], b);
      }
    }
  }

  /** The `array_filter` update of the buyer's own fields; sales and items are untouched. */
  function PatchBuyer(sh: Shop, id: nat, p: OptomPatch): (r: Shop)
    requires id in sh.optoms
    ensures r.optoms.Keys == sh.optoms.Keys
    ensures r.optoms[id].name == Kept(sh.optoms[id].name, p.name)
    ensures r.optoms[id].phone == Kept(sh.optoms[id].phone, p.phone)
    ensures r.optoms[id].address == Kept(sh.optoms[id].address, p.address)
    ensures forall o :: o in sh.optoms && o != id ==> r.optoms[o] == sh.optoms[o]
    ensures r.sales == sh.sales && r.items == sh.items && r.products == sh.products
    ensures r.nextOptom == sh.nextOptom && r.nextSale == sh.nextSale
    ensures WellFormed(sh) ==> WellFormed(r)
    ensures Priced(sh) ==> Priced(r)
    ensures forall s :: ConsistentAt(sh, s) ==> ConsistentAt(r, s)
  {
    var b := sh.optoms[id];
    sh.(optoms := sh.optoms[id := b.(name := Kept(b.name, p.name),
                                     phone := Kept(b.phone, p.phone),
                                     address := Kept(b.address, p.address))])
  }

  /** `updateOptomchi`: the buyer's fields, then the direct totals, then the
      items, each item update followed by a recomputation of its sale's
      total. There is no transaction: writes made before an entry that raises
      stay. */
  function UpdateOptomchi(sh: Shop, id: nat, p: OptomPatch): (r: Reply<Shop>)
    ensures id !in sh.optoms ==> r == Reply(sh, Failed(NotFound))
    ensures id in sh.optoms && !PatchValid(sh, p) ==> r == Reply(sh, Failed(ValidationFailed))
    ensures r.status == Done ==> id in sh.optoms && PatchValid(sh, p)
    ensures r.status != Done && id in sh.optoms && PatchValid(sh, p) ==> r.status == Failed(ServerError)
    ensures id in sh.optoms && PatchValid(sh, p) ==>
      && id in r.state.optoms
      && r.state.optoms[id].name == Kept(sh.optoms[id].name, p.name)
      && r.state.optoms[id].phone == Kept(sh.optoms[id].phone, p.phone)
      && r.state.optoms[id].address == Kept(sh.optoms[id].address, p.address)
    ensures r.state.optoms.Keys == sh.optoms.Keys && r.state.sales.Keys == sh.sales.Keys
    ensures r.state.products == sh.products && |r.state.items| == |sh.items|
    ensures forall o :: o in sh.optoms && o != id ==> r.state.optoms[o] == sh.optoms[o]
    ensures forall t :: t in sh.sales && sh.sales[t].optomId != id ==> r.state.sales[t] == sh.sales[t]
    ensures forall i :: 0 <= i < |sh.items| && !OfBuyer(sh, sh.items[i], id) ==> r.state.items[i] == sh.items[i]
    ensures forall i :: 0 <= i < |sh.items| && (forall k :: 0 <= k < |p.items| ==> p.items[k].id != sh.items[i].id) ==>
      r.state.items[i] == sh.items[i]
    ensures Valid(sh) && p.sales == [] ==> Valid(r.state)
    ensures WellFormed(sh) ==> WellFormed(r.state)
  {
    if id !in sh.optoms then Reply(sh, Failed(NotFound))
    else if !PatchValid(sh, p) then Reply(sh, Failed(ValidationFailed))
    else
      var sh1 := PatchBuyer(sh, id, p);
      var sh2 := ApplySaleTotals(sh1, id, p.sales);
      assert p.sales == [] ==> sh2 == sh1;
      var step := ApplyItemUpdates(sh2, id, p.items);
      Reply(step.0, if step.1 then Done else Failed(ServerError))
  }

  /** A successful `updateOptomchi` on buyer `id` writes what the request
      sends: a sale no item entry touches ends with the last total sent for
      it (or keeps its own); a sale with an item some entry names stores the
      sum of its subtotals; and each named item holds what the last entry
      naming it wrote; an item no entry names is left as it was. */
  lemma UpdateOptomchiWrites(sh: Shop, id: nat, p: OptomPatch)
    requires id in sh.optoms && PatchValid(sh, p) && UpdateOptomchi(sh, id, p).status == Done
    ensures var r := UpdateOptomchi(sh, id, p).state;
      forall t :: t in sh.sales && sh.sales[t].optomId == id && (forall k :: 0 <= k < |p.items| ==> !TouchedSale(sh.items, p.items[k], t)) ==>
        r.sales[t].total == LastTotal(p.sales, t, sh.sales[t].total)
    ensures var r := UpdateOptomchi(sh, id, p).state;
      forall k :: 0 <= k < |p.items| && OfBuyer(sh, sh.items[FindItem(sh.items, p.items[k].id).value], id) ==>
        ConsistentAt(r, sh.items[FindItem(sh.items, p.items[k].id).value].saleId)
    ensures var r := UpdateOptomchi(sh, id, p).state;
      forall k :: (0 <= k < |p.items| && OfBuyer(sh, sh.items[FindItem(sh.items, p.items[k].id).value], id)
                   && forall j :: k < j < |p.items| ==> p.items[j].id != p.items[k].id) ==>
        WritesEntry(sh.products, r.items[FindItem(sh.items, p.items[k].id).value], p.items[k])
    ensures var r := UpdateOptomchi(sh, id, p).state;
      forall i :: 0 <= i < |sh.items| && (forall k :: 0 <= k < |p.items| ==> p.items[k].id != sh.items[i].id) ==>
        r.items[i] == sh.items[i]
  {
    var sh1 := PatchBuyer(sh, id, p);
    var sh2 := ApplySaleTotals(sh1, id, p.sales);
    assert UpdateOptomchi(sh, id, p).state == ApplyItemUpdates(sh2, id, p.items).0;
    forall t | t in sh.sales && sh.sales[t].optomId == id && (forall k :: 0 <= k < |p.items| ==> !TouchedSale(sh.items, p.items[k], t))
      ensures UpdateOptomchi(sh, id, p).state.sales[t].total == LastTotal(p.sales, t, sh.sales[t].total)
    {
      ItemUpdatesKeepUntouched(sh2, id, p.items, t);
    }
    forall k | 0 <= k < |p.items| && OfBuyer(sh, sh.items[FindItem(sh.items, p.items[k].id).value], id)
      ensures ConsistentAt(UpdateOptomchi(sh, id, p).state, sh.items[FindItem(sh.items, p.items[k].id).value].saleId)
    {
      ItemUpdatesRecomputeTouched(sh2, id, p.items, k);
    }
    forall k | 0 <= k < |p.items| && OfBuyer(sh, sh.items[FindItem(sh.items, p.items[k].id).value], id)
        && (forall j :: k < j < |p.items| ==> p.items[j].id != p.items[k].id)
      ensures WritesEntry(sh.products, UpdateOptomchi(sh, id, p).state.items[FindItem(sh.items, p.items[k].id).value], p.items[k])
    {
      ItemUpdatesWriteLast(sh2, id, p.items, k);
    }
  }

  /** A direct total that differs from the sale's item sum, sent alone to a
      valid shop, is accepted and leaves the totals inconsistent. */
  lemma DirectTotalBreaksConsistency(sh: Shop, id: nat, up: SaleUpdate)
    requires Valid(sh) && id in sh.optoms
    requires up.id in sh.sales && sh.sales[up.id].optomId == id && up.total >= 0
    requires up.total != SaleTotal(sh.items, up.id)
    ensures var r := UpdateOptomchi(sh, id, OptomPatch(None, None, None, [up], []));
      r.status == Done && !TotalsConsistent(r.state)
  {
    var p := OptomPatch(None, None, None, [up], []);
    assert PatchValid(sh, p);
    var sh1 := PatchBuyer(sh, id, p);
    assert TotalsConsistent(sh1);
    assert ApplySaleTotals(sh1, id, p.sales) == OverwriteTotal(sh1, id, up);
    OverwriteConsistentIff(sh1, id, up);
  }

  /** A request carrying one `sale_items` entry and nothing else succeeds
      unless the entry is for a product item of this buyer and leaves out `unit`. */
  lemma OneItemEntryRaisesIff(sh: Shop, id: nat, up: ItemUpdate)
    requires WellFormed(sh) && id in sh.optoms
    requires ItemUpdateValid(sh.items, up)
    ensures var it := sh.items[FindItem(sh.items, up.id).value];
      var r := UpdateOptomchi(sh, id, OptomPatch(None, None, None, [], [up]));
      r.status == Done <==> !(OfBuyer(sh, it, id) && FromProduct(sh, it) && up.unit.None?)
  {
    var p := OptomPatch(None, None, None, [], [up]);
    assert PatchValid(sh, p);
    var sh1 := PatchBuyer(sh, id, p);
    assert ApplySaleTotals(sh1, id, p.sales) == sh1;
    assert ApplyItemUpdates(sh1, id, p.items) == ApplyItemUpdate(sh1, id, up);
  }

  // ---------------------------------------------------------------- delete

  /** The items whose sale is not among `gone`, in order (the cascade on the sales foreign key). */
  function KeepItems(items: seq<SaleItem>, gone: set<nat>): (r: seq<SaleItem>)
    ensures forall it :: it in r ==> it in items && it.saleId !in gone
    ensures forall i :: 0 <= i < |items| && items[i].saleId !in gone ==> items[i] in r
    decreases |items|
  {
    if |items| == 0 then []
    else
      var tail := KeepItems(items[1..], gone);
      assert forall i :: 1 <= i < |items| ==> items[i] == items[1..][i - 1];
      if items[0].saleId in gone then tail else [items[0]] + tail
  }

  lemma {:induction false} KeepItemsTotal(items: seq<SaleItem>, gone: set<nat>, s: nat)
    requires s !in gone
    ensures SaleTotal(KeepItems(items, gone), s) == SaleTotal(items, s)
    decreases |items|
  {
    if |items| > 0 {
      KeepItemsTotal(items[1..], gone, s);
      var tail := KeepItems(items[1..], gone);
      if items[0].saleId !in gone {
        assert ([items[0]] + tail)[1..] == tail;
      }
    }
  }

  /** The sales of buyer `o`. */
  function SalesOf(sales: map<nat, Sale>, o: nat): set<nat> {
    set s | s in sales && sales[s].optomId == o
  }

  /** Removing buyer `o`, its sales and their items. */
  function WithoutBuyer(sh: Shop, o: nat): Shop {
    var gone := SalesOf(sh.sales, o);
    sh.(optoms := sh.optoms - {o},
        sales := map s | s in sh.sales && s !in gone :: sh.sales[s],
        items := KeepItems(sh.items, gone))
  }

  lemma WithoutBuyerValid(sh: Shop, o: nat)
    requires Valid(sh)
    ensures Valid(WithoutBuyer(sh, o))
  {
    var gone := SalesOf(sh.sales, o);
    var r := WithoutBuyer(sh, o);
    forall s
      ensures ConsistentAt(r, s)
    {
      if s in r.sales {
        assert ConsistentAt(sh, s);
        KeepItemsTotal(sh.items, gone, s);
      }
    }
    forall i | 0 <= i < |r.items|
      ensures r.items[i].saleId in r.sales
      ensures r.items[i].subtotal == r.items[i].quantity * r.items[i].price
    {
      assert r.items[i] in r.items;
      assert r.items[i] in sh.items;
    }
  }

  /** Removing the item at `k` and taking its subtotal off its sale's total. */
  function WithoutItem(sh: Shop, k: nat): Shop
    requires k < |sh.items| && sh.items[k].saleId in sh.sales
  {
    var it := sh.items[k];
    sh.(items := sh.items[..k] + sh.items[k + 1..],
        sales := sh.sales[it.saleId := sh.sales[it.saleId].(total := sh.sales[it.saleId].total - it.subtotal)])
  }

  lemma WithoutItemValid(sh: Shop, k: nat)
    requires Valid(sh) && k < |sh.items|
    ensures Valid(WithoutItem(sh, k))
  {
    var r := WithoutItem(sh, k);
    forall t
      ensures ConsistentAt(r, t)
    {
      assert ConsistentAt(sh, t);
      Ledger.TotalRemove(sh.items, k, SaleShare(t));
    }
    assert forall i :: 0 <= i < |r.items| ==> r.items[i] == (if i < k then sh.items[i] else sh.items[i + 1]);
  }

  /** `destroyOptomchi`: the id is looked up as a buyer first; only when no
      buyer has it is it taken as a sale item id. Removing a buyer removes its
      sales and, through the cascade, their items; removing an item subtracts
      its subtotal from its sale's stored total. */
  function DestroyOptomchi(sh: Shop, id: nat): (r: Reply<Shop>)
    ensures id in sh.optoms ==>
      && r.status == Done
      && r.state.optoms == sh.optoms - {id}
      && r.state.sales.Keys == sh.sales.Keys - SalesOf(sh.sales, id)
      && (forall s :: s in r.state.sales ==> r.state.sales[s] == sh.sales[s])
      && (forall it :: it in r.state.items ==> it in sh.items && it.saleId !in SalesOf(sh.sales, id))
      && (forall i :: 0 <= i < |sh.items| && sh.items[i].saleId !in SalesOf(sh.sales, id) ==> sh.items[i] in r.state.items)
    ensures id !in sh.optoms && FindItem(sh.items, id).None? ==> r == Reply(sh, Failed(NotFound))
    ensures id !in sh.optoms && FindItem(sh.items, id).Some? && sh.items[FindItem(sh.items, id).value].saleId in sh.sales ==>
      var k := FindItem(sh.items, id).value;
      var s := sh.items[k].saleId;
      && r.status == Done
      && r.state.items == sh.items[..k] + sh.items[k + 1..]
      && r.state.sales == sh.sales[s := sh.sales[s].(total := sh.sales[s].total - sh.items[k].subtotal)]
    ensures Valid(sh) ==> Valid(r.state)
  {
    if id in sh.optoms then
      assert Valid(sh) ==> Valid(WithoutBuyer(sh, id)) by {
        if Valid(sh) {
          WithoutBuyerValid(sh, id);
        }
      }
      Reply(WithoutBuyer(sh, id), Done)
    else
      match FindItem(sh.items, id)
      case None => Reply(sh, Failed(NotFound))
      case Some(k) =>
        if sh.items[k].saleId !in sh.sales then Reply(sh, Failed(ServerError))
        else
          assert Valid(sh) ==> Valid(WithoutItem(sh, k)) by {
            if Valid(sh) {
              WithoutItemValid(sh, k);
            }
          }
          Reply(WithoutItem(sh, k), Done)
  }

  // ---------------------------------------------------------------- price

  /** `getProductPrice`: the price of the field the table picks, or 404 for an unknown product. */
  function GetProductPrice(products: map<nat, Product>, productId: nat, saleType: string, unit: string): (r: Option<int>)
    ensures r.None? <==> productId !in products
    ensures r.Some? && saleType == "optom" && unit == "dona" ==> r.value == products[productId].optomDona
    ensures r.Some? && saleType == "optom" && unit != "dona" ==> r.value == products[productId].optomBlok
    ensures r.Some? && saleType != "optom" && unit == "dona" ==> r.value == products[productId].toychiDona
    ensures r.Some? && saleType != "optom" && unit != "dona" ==> r.value == products[productId].toychiBlok
  {
    if productId !in products then None
    else Some(FieldPrice(products[productId], PriceKey(saleType, unit)))
  }
}

=== FILE: sweep.dfy ===
/** The daily `workers:update-summa` command (`UpdateWorkerSumma::handle`),
    scheduled at 11:00 local time.

    It rewrites every working worker's `summa` with the days since the start
    day plus one, counting today whatever the hour it runs at.
 */
module DailySweep {
  import opened Payroll

  /** What the command stores for a working worker. */
  function SweptSumma(w: Worker, today: int): int {
    (DaysBetween(w.day, today) + 1) * w.amount
  }

  function SweepOne(w: Worker, today: int): Worker {
    if w.status == Working then w.(summa := SweptSumma(w, today)) else w
  }

  /** The whole sweep as one step. */
  function Sweep(st: Staff, today: int): Staff {
    st.(workers := map id | id in st.workers :: SweepOne(st.workers[id], today))
  }

  /** `handle`: visit the working workers one at a time and save each. */
  method Handle(st: Staff, today: int) returns (r: Staff)
    ensures r.pays == st.pays && r.nextId == st.nextId
    ensures r.workers.Keys == st.workers.Keys
    ensures forall id :: id in st.workers && st.workers[id].status == Working ==>
      r.workers[id] == st.workers[id].(summa := (DaysBetween(st.workers[id].day, today) + 1) * st.workers[id].amount)
    ensures forall id :: id in st.workers && st.workers[id].status != Working ==> r.workers[id] == st.workers[id]
    ensures r == Sweep(st, today)
  {
    var ws := st.workers;
    var todo := set id | id in st.workers && st.workers[id].status == Working;
    while todo != {}
      invariant todo <= st.workers.Keys
      invariant ws.Keys == st.workers.Keys
      invariant forall id :: id in st.workers && id !in todo ==> ws[id] == SweepOne(st.workers[id], today)
      invariant forall id :: id in todo ==> ws[id] == st.workers[id] && ws[id].status == Working
      decreases todo
    {
      var id :| id in todo;
      ws := ws[id := ws[id].(summa := SweptSumma(ws[id], today))];
      todo := todo - {id};
    }
    r := st.(workers := ws);
  }

  /** The new `summa` does not depend on the old one, so a second run on the same day changes nothing. */
  lemma SweepIdempotent(st: Staff, today: int)
    ensures Sweep(Sweep(st, today), today) == Sweep(st, today)
  {
  }

  /** From 11:00 on, the sweep and the accrual `index` writes agree on every worker. */
  lemma SweepAgreesAfterCutoff(st: Staff, clock: Clock)
    requires clock.hour >= Cutoff
    ensures Sweep(st, clock.today) == Index(st, clock)
  {
  }

  /** Before 11:00 they disagree by exactly one daily rate for a working worker. */
  lemma SweepAheadBeforeCutoff(st: Staff, clock: Clock, id: nat)
    requires clock.hour < Cutoff && id in st.workers && st.workers[id].status == Working
    ensures Sweep(st, clock.today).workers[id].summa == Index(st, clock).workers[id].summa + st.workers[id].amount
  {
  }
}
